=== FILE: README.md ===
# synthec core, modelled in Dafny

synthec builds a small synthetic dataset of earnings-call paragraphs. Each
paragraph carries a sentiment label ("positive", "neutral" or "negative").
A language model writes the paragraphs in batches. Its answers are cleaned
and parsed as JSON, then checked against a fixed JSON Schema, and the
accepted items are collected until the target size is reached. Afterwards,
two financial analysts' labels and FinBERT's predictions for the same
paragraphs are compared.

This project models four parts of that pipeline and proves what they promise:

- `json_cleaner.dfy` (module `JsonCleaner`) covers `utils/json_cleaner.py`. It is pure.
  - `safe_load_json` is a chain of functions, one per stage. The stages are: the empty check, removal of an opening markdown fence, `strip()`/`strip("`")`, unwrapping one pair of matching quotes, and cutting out the bracketed array.
  - `extract_json_array` models the greedy `re.search(r"\[.*\]", DOTALL)`: the array runs from the first `[` to the last `]`.
  - `json.loads` and the `unicode_escape` codec are the parameters `parse` and `decode`. Each returns None where Python raises.
- `validate_format.dfy` (module `ValidateFormat`) covers `src/synthec/utils/validate_format.py`. It is pure.
  - The schema is a predicate on a JSON datatype (`json_value.dfy`).
  - `validate_json` returns `(true, None)` or `(false, message)`. The message describes the first violation.
- `generate_dataset.dfy` (module `GenerateDataset`) covers `generate_ec` in `scripts/generate_dataset.py`. It is imperative.
  - The `while i < TARGET` loop is a method with loop invariants. It is proved against the specification function `Run`.
  - The model's answers are a finite sequence `responses`. The loop also stops when that sequence runs out. (The Python loop has no attempt cap and would call the model forever.)
- `evaluate_human_vs_finbert.dfy` (module `EvaluateHumanVsFinbert`) covers the agreement bookkeeping of `scripts/evaluate_human_vs_finbert.py`:
  - `label_to_id` and `consensus`;
  - the consensus loop;
  - the consensus-only subsets;
  - `kappa_score`, with sklearn's kappa as a parameter;
  - the two report-slice loops;
  - `Evaluate`, which runs `main`'s steps from the loaded columns to the report contents, including the ways `main` stops early. Its FinBERT-vs-consensus slice uses the corrected per-paragraph entries (see "## Findings").

`wrappers.dfy` holds `Option` and `Result`.

When escape decoding fails, the sanitizer keeps the quotes (`utils/json_cleaner.py:28-31`): on `UnicodeDecodeError` the assignment to `text` never happens, so the quoted text goes on unchanged. `JsonCleaner.UnwrapQuotes` models exactly that.

## Model

| member | source | states |
|---|---|---|
| JsonCleaner.SkipFrom | utils/json_cleaner.py:23 | the left end of a strip: every character skipped is strippable, and the character it stops at (if any) is kept |
| JsonCleaner.IsSpace | utils/json_cleaner.py:23 | the characters `str.isspace` accepts, which `strip()` removes |
| JsonCleaner.BackFrom | utils/json_cleaner.py:23 | the right end of a strip: every character dropped from the end is strippable, and the one before it (if above the lower bound) is kept |
| JsonCleaner.Strip | utils/json_cleaner.py:23 | Python's `strip()` / `strip("`")`: the result is no longer than the input and neither starts nor ends with a strippable character |
| JsonCleaner.StripEmptyIffAllStrippable | utils/json_cleaner.py:23 | the strip is empty exactly when every input character is strippable |
| JsonCleaner.Blank | utils/json_cleaner.py:18 | line 18's test: the text is empty or all whitespace, so `text.strip() == ""` |
| JsonCleaner.StripKeepsMiddle | utils/json_cleaner.py:23 | the strip is a contiguous piece of the input, and everything cut away on either side is strippable |
| JsonCleaner.BackFromStopsAt | utils/json_cleaner.py:23 | stripping the right end stops exactly at the last kept character |
| JsonCleaner.StripDropsTail | utils/json_cleaner.py:23 | a text bordered by kept characters, followed by a strippable tail, strips to itself |
| JsonCleaner.ExtractJsonArray | utils/json_cleaner.py:5-11 | succeeds exactly when some `[` precedes some `]`. The result is the contiguous span from the first `[` of the text to its last `]`; a failure is the "No JSON array found" error |
| JsonCleaner.ExtractedSpanIsBracketed | utils/json_cleaner.py:5-11 | an extracted array has at least two characters, opens with `[` and closes with `]` |
| JsonCleaner.BracketsInWrongOrderFail | utils/json_cleaner.py:7-10 | `"]x["` holds both brackets, yet extraction fails, also when reached through the bracket guard |
| JsonCleaner.RemoveFence | utils/json_cleaner.py:22 | the result is a suffix of the input. It differs from the input only when the text starts with the fence and has a newline after it, and then exactly the prefix through the first such newline is removed |
| JsonCleaner.FenceLineRemoved | utils/json_cleaner.py:22 | a fence followed by a one-line language tag and a newline is removed, and nothing after it |
| JsonCleaner.StripStage | utils/json_cleaner.py:23 | after line 23 the text neither starts nor ends with whitespace, and it is no longer than before |
| JsonCleaner.ClosingFenceStripped | utils/json_cleaner.py:23 | a closing newline-plus-fence after a bracketed payload is removed by line 23 |
| JsonCleaner.Inner | utils/json_cleaner.py:29 | `text[1:-1]`: the text without its first and last characters, or empty when it has fewer than two |
| JsonCleaner.Quoted | utils/json_cleaner.py:26-27 | the text has at least one character and starts and ends with the same quote kind (one character counts) |
| JsonCleaner.UnwrapQuotes | utils/json_cleaner.py:26-31 | unquoted text is unchanged. Quoted text becomes the decoding of its inside; if decoding fails, the text is left exactly as it was, quotes included |
| JsonCleaner.LoneQuoteIsUnwrapped | utils/json_cleaner.py:26-29 | a single quote character counts as quoted, and the decoder receives the empty text |
| JsonCleaner.ExtractIfBracketed | utils/json_cleaner.py:34-35 | text without both `[` and `]` goes on unchanged; otherwise the result is `extract_json_array`'s. The only possible error is "No JSON array found" |
| JsonCleaner.WholePayloadExtracted | utils/json_cleaner.py:34-35 | a payload that opens with `[` and closes with `]` is extracted whole, and it is not treated as quoted |
| JsonCleaner.Sanitize | utils/json_cleaner.py:16-35 | "Empty response" is raised exactly for empty or whitespace-only input, and the pre-parse stages never raise a parse error |
| JsonCleaner.FencedArrayRoundTrip | utils/json_cleaner.py:16-35 | a bracketed payload wrapped in an opening fence (any one-line tag) and a closing fence comes out of the clean-up exactly as it went in |
| JsonCleaner.SafeLoadJson | utils/json_cleaner.py:16-37 | "Empty response" is raised exactly for blank input. A clean-up error is passed on unchanged. After a successful clean-up it succeeds exactly when the cleaned text parses, with the parsed value; otherwise it raises the parse error |
| ValidateFormat.IsLabel | src/synthec/utils/validate_format.py:11 | the label `enum`: exactly "positive", "neutral" and "negative" |
| ValidateFormat.ValidItem | src/synthec/utils/validate_format.py:7-14 | the `items` subschema: an object with string properties "paragraph" and "label", the label in the enum |
| ValidateFormat.Conforms | src/synthec/utils/validate_format.py:5-15 | the whole schema: an array whose every item is valid |
| ValidateFormat.ItemProblemOf | src/synthec/utils/validate_format.py:7-14 | an item has no problem exactly when it is valid under the `items` subschema; "not an object" is reported exactly for non-objects. A missing property is "paragraph" or "label" and absent from the object; a non-string property is present and not a string; an enum violation names the actual label, which is outside the enum |
| ValidateFormat.FirstBadItem | src/synthec/utils/validate_format.py:5-15 | none is found exactly when every item from `from` on is valid. A found index is the first invalid one |
| ValidateFormat.Check | src/synthec/utils/validate_format.py:5-15 | no violation exactly when the schema accepts the value; "not an array" exactly for non-arrays |
| ValidateFormat.Message | src/synthec/utils/validate_format.py:22-23 | every violation yields a non-empty message |
| ValidateFormat.MessageNamesItem | src/synthec/utils/validate_format.py:22-23 | a message about an item opens with "On instance[k]: " for that item's index k |
| ValidateFormat.ValidateJson | src/synthec/utils/validate_format.py:17-23 | the flag is true exactly when the schema accepts the data. True comes with None; false comes with a non-empty message |
| ValidateFormat.NonArrayRejected | src/synthec/utils/validate_format.py:6 | any non-array is rejected, as not an array |
| ValidateFormat.EmptyArrayAccepted | src/synthec/utils/validate_format.py:5-15 | the empty array is accepted (no `minItems`) |
| ValidateFormat.BadItemRejectsArray | src/synthec/utils/validate_format.py:7-14 | one invalid item (not an object, a missing key, a wrong type or a label outside the enum) rejects the array, and the report points at that item or an earlier one |
| ValidateFormat.LabelMatchIsExact | src/synthec/utils/validate_format.py:11 | the three labels are accepted. "Positive", "bullish" and " neutral" are not: there is no case folding or trimming |
| ValidateFormat.ExtraKeysAccepted | src/synthec/utils/validate_format.py:7-14 | adding a key other than "paragraph" or "label" keeps an item valid (no `additionalProperties`) |
| ValidateFormat.EmptyParagraphAccepted | src/synthec/utils/validate_format.py:10 | the empty string is an acceptable paragraph |
| ValidateFormat.BullishLabelRejected | src/synthec/utils/validate_format.py:11 | an item labelled "bullish" is reported at index 0 as outside the enum |
| GenerateDataset.ErrorRepr | scripts/generate_dataset.py:84-86 | every logged `repr(e)` is non-empty |
| GenerateDataset.ToRecord | scripts/generate_dataset.py:80-81 | a record keeps the item's paragraph and label strings, and its label is one of the three |
| GenerateDataset.Records | scripts/generate_dataset.py:76-82 | one record per item, in item order, each built from its item, all labelled |
| GenerateDataset.Taken | scripts/generate_dataset.py:76-82 | the items that fit: a prefix of the batch, as long as the room left or the whole batch |
| GenerateDataset.Absorb | scripts/generate_dataset.py:66-86 | one iteration never shrinks the dataset and keeps it within TARGET |
| GenerateDataset.AbsorbOnlyAppends | scripts/generate_dataset.py:66-86 | one iteration keeps earlier records and failures. Either it logs exactly one failure and leaves the dataset alone, or it logs nothing |
| GenerateDataset.AbsorbKeepsLabels | scripts/generate_dataset.py:76-82 | records collected by one iteration carry one of the three labels |
| GenerateDataset.AbsorbResponse | scripts/generate_dataset.py:66-86 | the loop body leaves exactly the state `Absorb` describes, with `i == len(dataset) <= TARGET` and only enum labels collected |
| GenerateDataset.AbsorbLogsAtMostOne | scripts/generate_dataset.py:66-86 | one iteration logs at most one failure and keeps the earlier ones |
| GenerateDataset.BatchCollected | scripts/generate_dataset.py:76-82 | a valid batch appends the records of the items that fit and logs nothing |
| GenerateDataset.Run | scripts/generate_dataset.py:62-88 | the run uses at most the responses it is given, and stopping before they run out means the dataset holds exactly TARGET records |
| GenerateDataset.GenerateEc | scripts/generate_dataset.py:45-88 | with `safe_load_json` as the loader, the final dataset, failures and number of responses used are those of `Run` from the empty state. It ends with TARGET records unless the responses ran out, and collects only enum labels |
| GenerateDataset.Collect | scripts/generate_dataset.py:62-88 | the `while i < TARGET` loop, over any loader, ends in the state `Run` computes from the empty state. It keeps `i == len(dataset) <= TARGET`, ends with TARGET records unless the responses ran out, and collects only enum labels |
| GenerateDataset.AppendBatch | scripts/generate_dataset.py:76-82 | the item loop appends the records of the first `TARGET - i` items (all of them if they fit), in order, and leaves `i == len(dataset) <= TARGET` |
| GenerateDataset.LoadFailureLogged | scripts/generate_dataset.py:84-86 | a response whose cleaning or parsing raises appends exactly one `{raw, repr(e)}` failure and leaves the dataset unchanged |
| GenerateDataset.InvalidBatchLogged | scripts/generate_dataset.py:70-74 | a response that parses but fails validation appends exactly one `{raw, message}` failure with the validator's message, and leaves the dataset unchanged |
| GenerateDataset.ValidBatchAppended | scripts/generate_dataset.py:76-82 | a valid batch adds no failure and appends the records of its first `min(len(data), TARGET - i)` items in order, keeping the existing records |
| GenerateDataset.EmptyBatchChangesNothing | scripts/generate_dataset.py:76-82 | a valid empty array changes neither the dataset nor the failures |
| GenerateDataset.RunOnlyAppends | scripts/generate_dataset.py:62-82 | over a whole run the dataset only grows, stays within TARGET and keeps its earlier records. Labels stay in the enum |
| GenerateDataset.FailuresOnlyAppended | scripts/generate_dataset.py:62-86 | over a whole run the failure log only grows and keeps its earlier entries |
| GenerateDataset.FailuresBoundedByResponses | scripts/generate_dataset.py:62-86 | over a whole run at most one failure is logged per response used |
| EvaluateHumanVsFinbert.BadLabels | scripts/evaluate_human_vs_finbert.py:31 | the bad labels are exactly those in the list that are not keys of LABELS |
| EvaluateHumanVsFinbert.Ids | scripts/evaluate_human_vs_finbert.py:35 | same length as the labels, each label replaced by its LABELS id |
| EvaluateHumanVsFinbert.LabelToId | scripts/evaluate_human_vs_finbert.py:30-35 | raises exactly when some label is outside LABELS, carrying the non-empty set of such labels. Otherwise it returns a same-length list of the labels' ids, in order |
| EvaluateHumanVsFinbert.LabelToIdRoundTrip | scripts/evaluate_human_vs_finbert.py:25-35 | every id is below 3 and maps back to the label it came from |
| EvaluateHumanVsFinbert.CapitalisedLabelUnexpected | scripts/evaluate_human_vs_finbert.py:30-33 | `["positive", "Neutral"]` raises with the set `{"Neutral"}` |
| EvaluateHumanVsFinbert.Consensus | scripts/evaluate_human_vs_finbert.py:38-46 | the flag is true exactly when the two labels are equal; then the label is the shared one, otherwise "neutral" |
| EvaluateHumanVsFinbert.ConsensusOfLabels | scripts/evaluate_human_vs_finbert.py:38-46 | the consensus of two known labels is a known label, and it does not depend on which analyst comes first |
| EvaluateHumanVsFinbert.AgreeFlags | scripts/evaluate_human_vs_finbert.py:92-97 | `consensus_flags`: one flag per pair of `zip(a, b)`, so `min(len a, len b)` of them, true where the pair agrees |
| EvaluateHumanVsFinbert.ConsensusResponses | scripts/evaluate_human_vs_finbert.py:92-97 | `resp`: the consensus label of each pair of `zip(a, b)`, `min(len a, len b)` of them |
| EvaluateHumanVsFinbert.ConsensusCheck | scripts/evaluate_human_vs_finbert.py:92-97 | `resp` and `consensus_flags` have length `min(len a, len b)`. Flag k is true exactly when `a[k] == b[k]`, and `resp[k]` is the consensus of that pair |
| EvaluateHumanVsFinbert.Where | scripts/evaluate_human_vs_finbert.py:112-118 | lists the flagged positions below `n`, each once, in increasing order, and no others |
| EvaluateHumanVsFinbert.NumTrue | scripts/evaluate_human_vs_finbert.py:102 | `sum(flags)` equals the number of flagged positions |
| EvaluateHumanVsFinbert.KeepSelects | scripts/evaluate_human_vs_finbert.py:112-118 | a filtered list has one element per set flag, namely the element at that flag's position |
| EvaluateHumanVsFinbert.KeepFlagged | scripts/evaluate_human_vs_finbert.py:112-118 | `[x for x, ok in zip(xs, flags) if ok]`: the elements of `xs` whose flag is set, over zip's shorter length, in order |
| EvaluateHumanVsFinbert.NumConsensusCountsAgreements | scripts/evaluate_human_vs_finbert.py:102 | `num_consensus` counts exactly the positions where the analysts agree |
| EvaluateHumanVsFinbert.ConsensusSubsetExact | scripts/evaluate_human_vs_finbert.py:112-118 | each `*_cons` list has length `num_consensus` and holds exactly the flagged elements, in their original order |
| EvaluateHumanVsFinbert.ConsensusSubsetsCoincide | scripts/evaluate_human_vs_finbert.py:112-114 | `c_cons`, `a_cons` and `b_cons` are the same list |
| EvaluateHumanVsFinbert.KappaScore | scripts/evaluate_human_vs_finbert.py:62-66 | None whenever either list holds an unexpected label. When both lists convert, the score is exactly sklearn's kappa on the two id lists |
| EvaluateHumanVsFinbert.UnexpectedLabelGivesNoKappa | scripts/evaluate_human_vs_finbert.py:62-66 | one unexpected predicted label makes the score None instead of raising |
| EvaluateHumanVsFinbert.Zip5 | scripts/evaluate_human_vs_finbert.py:131 | `zip(a, b, f, f_conf, text)`: one row per position up to the shortest of the five lists |
| EvaluateHumanVsFinbert.Zip4 | scripts/evaluate_human_vs_finbert.py:158 | `zip(c_cons, f_cons, f_conf_cons, text_cons)`: one row per position up to the shortest of the four lists |
| EvaluateHumanVsFinbert.SliceCases | scripts/evaluate_human_vs_finbert.py:131-155 | the loop's two lists are the human-disagreement slice and the hard-case slice of the zipped rows |
| EvaluateHumanVsFinbert.HumanDisagreementsExact | scripts/evaluate_human_vs_finbert.py:131-142 | one "Human disagreement" entry per position where `a_i != b_i`, in position order, describing that position |
| EvaluateHumanVsFinbert.HardCasesExact | scripts/evaluate_human_vs_finbert.py:145-155 | one hard-case entry per position whose confidence is strictly below the threshold, in position order |
| EvaluateHumanVsFinbert.ThresholdConfidenceNotHard | scripts/evaluate_human_vs_finbert.py:145 | a confidence equal to the default threshold 0.60 is not a hard case |
| EvaluateHumanVsFinbert.HumanDisagreements | scripts/evaluate_human_vs_finbert.py:131-142 | the "Human disagreement" slice: the entries of the rows where the analysts differ, in order |
| EvaluateHumanVsFinbert.HardCases | scripts/evaluate_human_vs_finbert.py:145-155 | the hard-case slice: the entries of the rows whose confidence is below the threshold, in order |
| EvaluateHumanVsFinbert.FinbertDisagreements | scripts/evaluate_human_vs_finbert.py:158-168 | the FinBERT-vs-consensus slice with per-paragraph entries, for the consensus rows where FinBERT differs, in order |
| EvaluateHumanVsFinbert.FinbertVsConsensus | scripts/evaluate_human_vs_finbert.py:158-168 | the second loop keeps the earlier entries and appends the FinBERT-vs-consensus slice |
| EvaluateHumanVsFinbert.FinbertDisagreementsExact | scripts/evaluate_human_vs_finbert.py:158-168 | one entry per consensus row where `c_i != f_i`, in order, carrying that row's own paragraph and confidence |
| EvaluateHumanVsFinbert.ListEntry | scripts/evaluate_human_vs_finbert.py:161-167 | the entry as written is tagged "Finbert vs Humans - disagreement", carries the row's consensus and FinBERT labels, and holds a paragraph list and a confidence list as long as the whole consensus subset |
| EvaluateHumanVsFinbert.ListEntryHoldsWholeLists | scripts/evaluate_human_vs_finbert.py:162-166 | those lists are `text_cons` and `f_conf_cons` element by element, whichever row the entry is for |
| EvaluateHumanVsFinbert.FinbertVsConsensusAsWritten | scripts/evaluate_human_vs_finbert.py:158-168 | as written, the loop keeps the earlier entries and appends one entry per disagreeing row, in order, each holding the whole `text_cons` and `f_conf_cons` lists |
| EvaluateHumanVsFinbert.ListEntriesLoseTheirParagraph | scripts/evaluate_human_vs_finbert.py:162-166 | two disagreeing rows "p1" and "p2" both get the paragraph field `["p1", "p2"]` as written, while the per-paragraph entries carry "p1" and "p2" |
| EvaluateHumanVsFinbert.PredictedLabels | scripts/evaluate_human_vs_finbert.py:78 | `f`: the FinBERT label of each prediction, one per line |
| EvaluateHumanVsFinbert.Confidences | scripts/evaluate_human_vs_finbert.py:79 | `f_conf`: the confidence of each prediction, one per line |
| EvaluateHumanVsFinbert.Paragraphs | scripts/evaluate_human_vs_finbert.py:80 | `text`: the paragraph of each prediction, one per line |
| EvaluateHumanVsFinbert.ConsensusRows | scripts/evaluate_human_vs_finbert.py:112-158 | the rows of line 158's zip, built from the consensus-only subsets `c_cons`, `f_cons`, `f_conf_cons` and `text_cons` of lines 114-118 |
| EvaluateHumanVsFinbert.Evaluate | scripts/evaluate_human_vs_finbert.py:91-168 | stops with the length assertion exactly when the four lengths differ, and with division by zero exactly when all are 0. Otherwise it stops on an unexpected label: the consensus list's bad labels when it has any, else FinBERT's. On success the counts, the four kappas (the consensus one on `a_cons`/`f_cons`) and both slices are those of the specification functions, the FinBERT-vs-consensus slice in its corrected form |

## Findings

| source | as written | input that shows it | evidently intended | confidence | as-written member | corrected member |
|---|---|---|---|---|---|---|
| scripts/evaluate_human_vs_finbert.py:162-166 | each "Finbert vs Humans - disagreement" entry stores the whole `text_cons` list under "paragraph" and the whole `f_conf_cons` list under "finbert confidence" | `c_cons = ["positive", "negative"]`, `f_cons = ["neutral", "neutral"]`, `text_cons = ["p1", "p2"]`: both entries get paragraph `["p1", "p2"]` | each entry stores its own `txt` and `conf`, like the entries of the first slice loop | high; not executed | EvaluateHumanVsFinbert.FinbertVsConsensusAsWritten | EvaluateHumanVsFinbert.FinbertVsConsensus |

## Left out

- The language model call, the OpenAI client, `load_dotenv`, the API-key check and the prompts (`BATCH_SIZE` only appears in the prompt text). The model's answers are the `responses` parameter.
- A `None` message content from the API is not modelled. `safe_load_json` would treat it like an empty response.
- JsonCleaner.UnwrapQuotes: `.encode('utf-8')` at `utils/json_cleaner.py:29` raises `UnicodeEncodeError` on text holding a lone surrogate, and line 30 does not catch it, so it escapes `safe_load_json`. Dafny's `string` cannot hold lone surrogates, so that path is not modelled.
- `json.loads` and the `unicode_escape` codec are not re-implemented. They are the parameters `parse` and `decode`, and the JSON value is a datatype with `real` numbers.
- File input and output are not part of this model: `load_jsonl`, `load_csv`, the prompt loader, the file-existence check of `main` (lines 70-72) and the report file. The loaded columns are parameters of `Evaluate`.
- Printing (including the formatting of a None kappa at lines 206-207, which raises a `TypeError`) and the float `consensus_rate`. Only the division's zero-division error is modelled.
- FinBERT inference (`scripts/evaluate_finbert.py`) is not part of this model.
- sklearn's `cohen_kappa_score` is the parameter `cohen`. When both raters use one identical class it returns NaN rather than raising; a `real` cannot hold NaN, so the model's `cohen` must answer None or some real there, and the NaN in the report is not modelled.
- EvaluateHumanVsFinbert.Evaluate: the report's FinBERT-vs-consensus slice holds the corrected per-paragraph entries (`FinbertVsConsensus`). Lines 161-167 as written store the whole `text_cons` and `f_conf_cons` lists in every entry instead; `FinbertVsConsensusAsWritten` models that behaviour, and "## Findings" records the difference.
- EvaluateHumanVsFinbert.Evaluate: sklearn's `accuracy_score`, `confusion_matrix` and `classification_report` are not modelled. Inputs on which they raise are reported as a success, for instance when fewer than three classes occur in `c_cons` and `f_cons` while `target_names` names three. Only their `label_to_id` checks are.
- EvaluateHumanVsFinbert.Evaluate: the threshold is a `real` parameter, with `DefaultConfidenceThreshold` as the default. `CONFIDENCE_TRESHOLD` set in the environment would be a string, and line 145 would then raise a `TypeError`. Confidences and the threshold are exact decimals: `0.60` is the rational 3/5, not the nearest binary double, so float rounding is not modelled and `ThresholdConfidenceNotHard` holds for a confidence read as the decimal it was written as.
- ValidateFormat.ValidateJson: the message follows jsonschema's wording but is not its exact text. When several violations exist, the model reports the first item's first problem in a fixed keyword order rather than jsonschema's `best_match` choice.
- GenerateDataset.ErrorRepr: the `repr` of a `JSONDecodeError` (message and position) is abbreviated to a fixed non-empty text.
- GenerateDataset.GenerateEc: the Python loop has no attempt cap and would keep calling the model. The model stops when `responses` runs out and reports how many it used.

=== FILE: evaluate_human_vs_finbert.dfy ===
/**
 * Model of the bookkeeping in scripts/evaluate_human_vs_finbert.py: two
 * analysts' labels are compared with each other and with FinBERT's
 * predictions, giving a consensus, consensus-only subsets, Cohen's kappa
 * scores and two report slices (disagreements and low-confidence hard cases).
 *
 * Files are not read here: the analysts' label columns, FinBERT's rows and the
 * size of the synthetic dataset are parameters. `cohen_kappa_score` is the
 * parameter `cohen`, returning None where sklearn raises. Confidences are
 * `real`; only `<` is applied to them.
 */
module EvaluateHumanVsFinbert {
  import opened Wrappers

  // ---------------------------------------------------------------------------
  // Labels
  // ---------------------------------------------------------------------------

  /** LABELS: the three sentiment labels and their class ids. */
  const Labels: map<string, nat> := map["positive" := 0, "negative" := 1, "neutral" := 2]

  /** The default of CONFIDENCE_TRESHOLD, used when the environment does not set it. */
  const DefaultConfidenceThreshold: real := 0.60

  /** The labels of `labels` that are not keys of LABELS (`set(bad_labels)`). */
  function BadLabels(labels: seq<string>): (r: set<string>)
    ensures forall l :: l in r <==> l in labels && l !in Labels
  {
    set l | l in labels && l !in Labels
  }

  /** `[LABELS[l] for l in labels]` once every label is known. */
  function Ids(labels: seq<string>): (r: seq<nat>)
    requires forall k :: 0 <= k < |labels| ==> labels[k] in Labels
    ensures |r| == |labels|
    ensures forall k :: 0 <= k < |labels| ==> r[k] == Labels[labels[k]]
  {
    if labels == [] then []
    else Ids(labels[..|labels| - 1]) + [Labels[labels[|labels| - 1]]]
  }

  /**
   * `label_to_id(labels)`: the class ids in order, or the `ValueError` carrying
   * the set of unexpected labels.
   */
  function LabelToId(labels: seq<string>): (r: Result<seq<nat>, set<string>>)
    ensures r.Failure? <==> exists k :: 0 <= k < |labels| && labels[k] !in Labels
    ensures r.Failure? ==> r.error == BadLabels(labels) && r.error != {}
    ensures r.Success? ==> |r.value| == |labels|
    ensures r.Success? ==> forall k :: 0 <= k < |labels| ==> r.value[k] == Labels[labels[k]]
  {
    var bad := BadLabels(labels);
    if bad != {} then Failure(bad)
    else
      assert forall k :: 0 <= k < |labels| ==> labels[k] !in bad;
      Success(Ids(labels))
  }

  /** The label a class id stands for: the inverse of LABELS. */
  function IdToLabel(id: nat): string {
    if id == 0 then "positive" else if id == 1 then "negative" else "neutral"
  }

  /** Class ids decode back to the labels they came from, and every id is below 3. */
  lemma LabelToIdRoundTrip(labels: seq<string>)
    requires LabelToId(labels).Success?
    ensures forall k :: 0 <= k < |labels| ==> LabelToId(labels).value[k] < 3
    ensures forall k :: 0 <= k < |labels| ==> IdToLabel(LabelToId(labels).value[k]) == labels[k]
  {
    var ids := LabelToId(labels).value;
    forall k | 0 <= k < |labels|
      ensures ids[k] < 3 && IdToLabel(ids[k]) == labels[k]
    {
      assert labels[k] in Labels;
      assert labels[k] == "positive" || labels[k] == "negative" || labels[k] == "neutral";
    }
  }

  /** Labels are matched exactly: a capitalised label is unexpected. */
  lemma CapitalisedLabelUnexpected()
    ensures LabelToId(["positive", "Neutral"]) == Failure({"Neutral"})
  {
    var labels := ["positive", "Neutral"];
    assert labels[1] == "Neutral" && labels[1] !in Labels;
    assert "positive" in Labels;
    assert forall l :: l in labels ==> l == "positive" || l == "Neutral";
    assert BadLabels(labels) == {"Neutral"};
  }

  // ---------------------------------------------------------------------------
  // Consensus between the two analysts
  // ---------------------------------------------------------------------------

  /** `consensus(a, b)`: the shared label and True, or "neutral" and False when they differ. */
  function Consensus(a: string, b: string): (r: (string, bool))
    ensures r.1 <==> a == b
    ensures r.1 ==> r.0 == a
    ensures !r.1 ==> r.0 == "neutral"
  {
    if a != b then ("neutral", false) else (a, true)
  }

  /** The consensus of two known labels is a known label, whichever analyst is named first. */
  lemma ConsensusOfLabels(a: string, b: string)
    requires a in Labels && b in Labels
    ensures Consensus(a, b).0 in Labels
    ensures Consensus(a, b) == Consensus(b, a)
  {
  }

  function Min(x: nat, y: nat): nat {
    if x <= y then x else y
  }

  /** `consensus_flags` as a value: one flag per pair of `zip(a, b)`. */
  function AgreeFlags(a: seq<string>, b: seq<string>): (flags: seq<bool>)
    ensures |flags| == Min(|a|, |b|)
  {
    seq(Min(|a|, |b|), k requires 0 <= k < Min(|a|, |b|) => a[k] == b[k])
  }

  /** `resp` as a value: the consensus label of each pair of `zip(a, b)`. */
  function ConsensusResponses(a: seq<string>, b: seq<string>): (resp: seq<string>)
    ensures |resp| == Min(|a|, |b|)
  {
    seq(Min(|a|, |b|), k requires 0 <= k < Min(|a|, |b|) => Consensus(a[k], b[k]).0)
  }

  /**
   * Lines 92-97: the loop over `zip(a, b)` that fills `resp` and
   * `consensus_flags`.
   */
  method ConsensusCheck(a: seq<string>, b: seq<string>) returns (resp: seq<string>, flags: seq<bool>)
    ensures |resp| == |flags| == Min(|a|, |b|)
    ensures forall k :: 0 <= k < |flags| ==> (flags[k] <==> a[k] == b[k])
    ensures forall k :: 0 <= k < |resp| ==> resp[k] == Consensus(a[k], b[k]).0
    ensures resp == ConsensusResponses(a, b) && flags == AgreeFlags(a, b)
  {
    resp, flags := [], [];
    var n := Min(|a|, |b|);
    var k := 0;
    while k < n
      invariant 0 <= k <= n
      invariant |resp| == |flags| == k
      invariant forall j :: 0 <= j < k ==> (flags[j] <==> a[j] == b[j])
      invariant forall j :: 0 <= j < k ==> resp[j] == Consensus(a[j], b[j]).0
    {
      var (r, ok) := Consensus(a[k], b[k]);
      resp := resp + [r];
      flags := flags + [ok];
      k := k + 1;
    }
  }

  // ---------------------------------------------------------------------------
  // Counting and filtering by flags
  // ---------------------------------------------------------------------------

  /** The positions among the first `n` whose flag is set, in increasing order. */
  function Where(flags: seq<bool>, n: nat): (r: seq<nat>)
    requires n <= |flags|
    ensures forall j :: 0 <= j < |r| ==> r[j] < n && flags[r[j]]
    ensures forall j, j' :: 0 <= j < j' < |r| ==> r[j] < r[j']
    ensures forall k :: 0 <= k < n && flags[k] ==> k in r
    ensures |r| <= n
    decreases n
  {
    if n == 0 then []
    else Where(flags, n - 1) + (if flags[n - 1] then [n - 1] else [])
  }

  /** `sum(flags)` over the first `n` flags: True counts 1, False 0. */
  function NumTrue(flags: seq<bool>, n: nat): (r: nat)
    requires n <= |flags|
    ensures r == |Where(flags, n)|
    decreases n
  {
    if n == 0 then 0
    else NumTrue(flags, n - 1) + (if flags[n - 1] then 1 else 0)
  }

  /** The elements of `xs` among the first `n` whose flag is set, in order. */
  function Keep<T>(xs: seq<T>, flags: seq<bool>, n: nat): seq<T>
    requires n <= |xs| && n <= |flags|
    decreases n
  {
    if n == 0 then []
    else Keep(xs, flags, n - 1) + (if flags[n - 1] then [xs[n - 1]] else [])
  }

  /** `Keep` takes one element per set flag, the element at that flag's position. */
  lemma {:induction false} KeepSelects<T>(xs: seq<T>, flags: seq<bool>, n: nat)
    requires n <= |xs| && n <= |flags|
    ensures |Keep(xs, flags, n)| == |Where(flags, n)|
    ensures forall j :: 0 <= j < |Keep(xs, flags, n)| ==> Keep(xs, flags, n)[j] == xs[Where(flags, n)[j]]
    decreases n
  {
    if n > 0 {
      KeepSelects(xs, flags, n - 1);
    }
  }

  lemma KeepStep<T>(xs: seq<T>, flags: seq<bool>, k: nat)
    requires k < |xs| && k < |flags|
    ensures Keep(xs, flags, k + 1) == Keep(xs, flags, k) + (if flags[k] then [xs[k]] else [])
  {
  }

  /** `[x for x, ok in zip(xs, flags) if ok]`: `zip` stops at the shorter list. */
  function KeepFlagged<T>(xs: seq<T>, flags: seq<bool>): seq<T> {
    Keep(xs, flags, Min(|xs|, |flags|))
  }

  /**
   * Line 102: `num_consensus` is the number of positions where the two
   * analysts agree, each counted once.
   */
  lemma {:induction false} NumConsensusCountsAgreements(a: seq<string>, b: seq<string>)
    ensures var flags := AgreeFlags(a, b);
      && NumTrue(flags, |flags|) == |Where(flags, |flags|)|
      && forall k :: k in Where(flags, |flags|) <==> 0 <= k < Min(|a|, |b|) && a[k] == b[k]
  {
    var flags := AgreeFlags(a, b);
    forall k | k in Where(flags, |flags|)
      ensures 0 <= k < Min(|a|, |b|) && a[k] == b[k]
    {
      var j :| 0 <= j < |Where(flags, |flags|)| && Where(flags, |flags|)[j] == k;
      assert flags[k];
    }
  }

  /**
   * Lines 112-118: a consensus-only subset keeps exactly the flagged elements,
   * in their original order; with the list at least as long as the flags, its
   * length is the number of set flags.
   */
  lemma ConsensusSubsetExact<T>(xs: seq<T>, flags: seq<bool>)
    requires |flags| <= |xs|
    ensures |KeepFlagged(xs, flags)| == NumTrue(flags, |flags|)
    ensures forall j :: 0 <= j < |KeepFlagged(xs, flags)| ==>
      KeepFlagged(xs, flags)[j] == xs[Where(flags, |flags|)[j]] && flags[Where(flags, |flags|)[j]]
  {
    assert Min(|xs|, |flags|) == |flags|;
    KeepSelects(xs, flags, |flags|);
  }

  /**
   * Lines 112-114: on the consensus positions the consensus label is what
   * both analysts said, so `c_cons`, `a_cons` and `b_cons` are the same list.
   */
  lemma {:induction false} ConsensusSubsetsCoincide(a: seq<string>, b: seq<string>)
    ensures var flags := AgreeFlags(a, b);
      && KeepFlagged(ConsensusResponses(a, b), flags) == KeepFlagged(a, flags)
      && KeepFlagged(b, flags) == KeepFlagged(a, flags)
  {
    var flags := AgreeFlags(a, b);
    var resp := ConsensusResponses(a, b);
    var n := |flags|;
    assert Min(|resp|, n) == Min(|a|, n) == Min(|b|, n) == n;
    var idx := Where(flags, n);
    KeepSelects(resp, flags, n);
    KeepSelects(a, flags, n);
    KeepSelects(b, flags, n);
    forall j | 0 <= j < |idx|
      ensures Keep(resp, flags, n)[j] == Keep(a, flags, n)[j] == Keep(b, flags, n)[j]
    {
      assert flags[idx[j]];
    }
  }

  // ---------------------------------------------------------------------------
  // Cohen's kappa
  // ---------------------------------------------------------------------------

  /**
   * `kappa_score(y_true, y_pred)`: `cohen` applied to the class ids, or None
   * when a label is unexpected or `cohen` itself raises.
   */
  function KappaScore(yTrue: seq<string>, yPred: seq<string>, cohen: (seq<nat>, seq<nat>) -> Option<real>)
    : (r: Option<real>)
    ensures BadLabels(yTrue) != {} || BadLabels(yPred) != {} ==> r == None
    ensures r.Some? ==> LabelToId(yTrue).Success? && LabelToId(yPred).Success?
    ensures LabelToId(yTrue).Success? && LabelToId(yPred).Success? ==>
              r == cohen(LabelToId(yTrue).value, LabelToId(yPred).value)
  {
    match (LabelToId(yTrue), LabelToId(yPred))
    case (Success(t), Success(p)) => cohen(t, p)
    case _ => None
  }

  /** A single unexpected label turns the score into None instead of raising. */
  lemma UnexpectedLabelGivesNoKappa(yTrue: seq<string>, yPred: seq<string>, k: nat,
                                    cohen: (seq<nat>, seq<nat>) -> Option<real>)
    requires k < |yPred| && yPred[k] !in Labels
    ensures KappaScore(yTrue, yPred, cohen) == None
  {
    assert yPred[k] in BadLabels(yPred);
  }

  // ---------------------------------------------------------------------------
  // Report slices
  // ---------------------------------------------------------------------------

  const HumanDisagreementKind: string := "Human disagreement"
  const LowConfidenceKind: string := "low finbert confidence"
  const FinbertDisagreementKind: string := "Finbert vs Humans - disagreement"

  /** One entry of the `disagreements` or `hard_cases` list of the report. */
  datatype SliceEntry =
      /** Lines 133-154: both analysts' labels and FinBERT's prediction for one paragraph. */
    | AnalystEntry(paragraph: string, kind: string, analystA: string, analystB: string,
                   finbert: string, confidence: real)
      /** FinBERT against the analysts' consensus label for one paragraph. */
    | ConsensusEntry(paragraph: string, kind: string, consensus: string, finbert: string, confidence: real)
      /** Lines 161-167 as written: the paragraph and confidence keys hold the whole consensus-only lists. */
    | ConsensusListEntry(paragraphs: seq<string>, kind: string, consensus: string, finbert: string,
                         confidences: seq<real>)

  /** One element of `zip(a, b, f, f_conf, text)`. */
  datatype Row = Row(analystA: string, analystB: string, finbert: string, confidence: real, paragraph: string)

  function Min5(p: nat, q: nat, r: nat, s: nat, t: nat): nat {
    Min(Min(Min(Min(p, q), r), s), t)
  }

  function Zip5(a: seq<string>, b: seq<string>, f: seq<string>, conf: seq<real>, text: seq<string>)
    : (rows: seq<Row>)
    ensures |rows| == Min5(|a|, |b|, |f|, |conf|, |text|)
  {
    var n := Min5(|a|, |b|, |f|, |conf|, |text|);
    seq(n, k requires 0 <= k < n => Row(a[k], b[k], f[k], conf[k], text[k]))
  }

  /** Flags of the rows whose analysts disagree (line 132). */
  function DifferFlags(rows: seq<Row>): (flags: seq<bool>)
    ensures |flags| == |rows|
  {
    seq(|rows|, k requires 0 <= k < |rows| => rows[k].analystA != rows[k].analystB)
  }

  /** Flags of the rows whose FinBERT confidence is strictly below `threshold` (line 145). */
  function LowConfidenceFlags(rows: seq<Row>, threshold: real): (flags: seq<bool>)
    ensures |flags| == |rows|
  {
    seq(|rows|, k requires 0 <= k < |rows| => rows[k].confidence < threshold)
  }

  /** The report entry of a row, tagged with `kind` (lines 133-154). */
  function AnalystEntryOf(row: Row, kind: string): SliceEntry {
    AnalystEntry(row.paragraph, kind, row.analystA, row.analystB, row.finbert, row.confidence)
  }

  /** The report entry of each row, tagged with `kind`. */
  function AnalystEntries(rows: seq<Row>, kind: string): (r: seq<SliceEntry>)
    ensures |r| == |rows|
  {
    seq(|rows|, j requires 0 <= j < |rows| => AnalystEntryOf(rows[j], kind))
  }

  /** The "Human disagreement" entries the first slice loop emits. */
  function HumanDisagreements(rows: seq<Row>): seq<SliceEntry> {
    AnalystEntries(Keep(rows, DifferFlags(rows), |rows|), HumanDisagreementKind)
  }

  /** The hard-case entries the first slice loop emits. */
  function HardCases(rows: seq<Row>, threshold: real): seq<SliceEntry> {
    AnalystEntries(Keep(rows, LowConfidenceFlags(rows, threshold), |rows|), LowConfidenceKind)
  }

  /**
   * Lines 131-155: one pass over the rows, adding a "Human disagreement" entry
   * where the analysts differ and a hard case where the confidence is below
   * the threshold.
   */
  method SliceCases(rows: seq<Row>, threshold: real) returns (disagreements: seq<SliceEntry>, hardCases: seq<SliceEntry>)
    ensures disagreements == HumanDisagreements(rows)
    ensures hardCases == HardCases(rows, threshold)
  {
    disagreements, hardCases := [], [];
    var differ := DifferFlags(rows);
    var low := LowConfidenceFlags(rows, threshold);
    var k := 0;
    while k < |rows|
      invariant 0 <= k <= |rows|
      invariant disagreements == AnalystEntries(Keep(rows, differ, k), HumanDisagreementKind)
      invariant hardCases == AnalystEntries(Keep(rows, low, k), LowConfidenceKind)
    {
      var row := rows[k];
      AnalystSliceStep(rows, differ, k, HumanDisagreementKind);
      AnalystSliceStep(rows, low, k, LowConfidenceKind);
      if row.analystA != row.analystB {
        disagreements := disagreements + [AnalystEntry(row.paragraph, HumanDisagreementKind, row.analystA,
                                                       row.analystB, row.finbert, row.confidence)];
      }
      if row.confidence < threshold {
        hardCases := hardCases + [AnalystEntry(row.paragraph, LowConfidenceKind, row.analystA,
                                               row.analystB, row.finbert, row.confidence)];
      }
      k := k + 1;
    }
  }

  /** One more row of the slice loop: its entry is appended exactly when its flag is set. */
  lemma AnalystSliceStep(rows: seq<Row>, flags: seq<bool>, k: nat, kind: string)
    requires k < |rows| == |flags|
    ensures AnalystEntries(Keep(rows, flags, k + 1), kind)
         == AnalystEntries(Keep(rows, flags, k), kind) + (if flags[k] then [AnalystEntryOf(rows[k], kind)] else [])
  {
    KeepStep(rows, flags, k);
  }

  /**
   * The first slice loop emits exactly one "Human disagreement" entry per
   * position where the analysts differ, in position order, describing that
   * position's row.
   */
  lemma HumanDisagreementsExact(rows: seq<Row>)
    ensures var idx := Where(DifferFlags(rows), |rows|);
      && |HumanDisagreements(rows)| == |idx|
      && (forall k :: 0 <= k < |rows| && rows[k].analystA != rows[k].analystB ==> k in idx)
      && forall j :: 0 <= j < |idx| ==>
           rows[idx[j]].analystA != rows[idx[j]].analystB
           && HumanDisagreements(rows)[j]
              == AnalystEntry(rows[idx[j]].paragraph, HumanDisagreementKind, rows[idx[j]].analystA,
                              rows[idx[j]].analystB, rows[idx[j]].finbert, rows[idx[j]].confidence)
  {
    var flags := DifferFlags(rows);
    KeepSelects(rows, flags, |rows|);
    forall k | 0 <= k < |rows| && rows[k].analystA != rows[k].analystB
      ensures k in Where(flags, |rows|)
    {
      assert flags[k];
    }
  }

  /**
   * The first slice loop emits exactly one hard case per position whose
   * confidence is strictly below the threshold, in position order.
   */
  lemma HardCasesExact(rows: seq<Row>, threshold: real)
    ensures var idx := Where(LowConfidenceFlags(rows, threshold), |rows|);
      && |HardCases(rows, threshold)| == |idx|
      && (forall k :: 0 <= k < |rows| && rows[k].confidence < threshold ==> k in idx)
      && forall j :: 0 <= j < |idx| ==>
           rows[idx[j]].confidence < threshold
           && HardCases(rows, threshold)[j]
              == AnalystEntry(rows[idx[j]].paragraph, LowConfidenceKind, rows[idx[j]].analystA,
                              rows[idx[j]].analystB, rows[idx[j]].finbert, rows[idx[j]].confidence)
  {
    var flags := LowConfidenceFlags(rows, threshold);
    KeepSelects(rows, flags, |rows|);
    forall k | 0 <= k < |rows| && rows[k].confidence < threshold
      ensures k in Where(flags, |rows|)
    {
      assert flags[k];
    }
  }

  /** A confidence equal to the threshold is not a hard case: the comparison is strict. */
  lemma ThresholdConfidenceNotHard(row: Row)
    requires row.confidence == DefaultConfidenceThreshold
    ensures HardCases([row], DefaultConfidenceThreshold) == []
  {
    assert Where(LowConfidenceFlags([row], DefaultConfidenceThreshold), 1) == [];
  }

  // ---------------------------------------------------------------------------
  // FinBERT against the analysts' consensus
  // ---------------------------------------------------------------------------

  /** One element of `zip(c_cons, f_cons, f_conf_cons, text_cons)`. */
  datatype ConsensusRow = ConsensusRow(consensus: string, finbert: string, confidence: real, paragraph: string)

  function Zip4(c: seq<string>, f: seq<string>, conf: seq<real>, text: seq<string>): (rows: seq<ConsensusRow>)
    ensures |rows| == Min(Min(Min(|c|, |f|), |conf|), |text|)
  {
    var n := Min(Min(Min(|c|, |f|), |conf|), |text|);
    seq(n, k requires 0 <= k < n => ConsensusRow(c[k], f[k], conf[k], text[k]))
  }

  /** Flags of the rows where FinBERT and the consensus differ (line 159). */
  function ConsensusDifferFlags(rows: seq<ConsensusRow>): (flags: seq<bool>)
    ensures |flags| == |rows|
  {
    seq(|rows|, k requires 0 <= k < |rows| => rows[k].consensus != rows[k].finbert)
  }

  /** The per-paragraph entry of a row where FinBERT and the consensus differ. */
  function ConsensusEntryOf(row: ConsensusRow): SliceEntry {
    ConsensusEntry(row.paragraph, FinbertDisagreementKind, row.consensus, row.finbert, row.confidence)
  }

  /** The per-paragraph entry of each row. */
  function ConsensusEntries(rows: seq<ConsensusRow>): (r: seq<SliceEntry>)
    ensures |r| == |rows|
  {
    seq(|rows|, j requires 0 <= j < |rows| => ConsensusEntryOf(rows[j]))
  }

  /** The entries of the second disagreement loop, one per paragraph. */
  function FinbertDisagreements(rows: seq<ConsensusRow>): seq<SliceEntry> {
    ConsensusEntries(Keep(rows, ConsensusDifferFlags(rows), |rows|))
  }

  /**
   * Lines 158-168 with each entry describing its own paragraph: appends one
   * entry per consensus row where FinBERT's label differs from the consensus.
   */
  method FinbertVsConsensus(disagreements0: seq<SliceEntry>, rows: seq<ConsensusRow>)
    returns (disagreements: seq<SliceEntry>)
    ensures disagreements == disagreements0 + FinbertDisagreements(rows)
  {
    disagreements := disagreements0;
    var differ := ConsensusDifferFlags(rows);
    var k := 0;
    while k < |rows|
      invariant 0 <= k <= |rows|
      invariant disagreements == disagreements0 + ConsensusEntries(Keep(rows, differ, k))
    {
      var row := rows[k];
      ConsensusSliceStep(rows, differ, k);
      if row.consensus != row.finbert {
        disagreements := disagreements
          + [ConsensusEntry(row.paragraph, FinbertDisagreementKind, row.consensus, row.finbert, row.confidence)];
      }
      k := k + 1;
    }
  }

  /** One more row of the second loop: its entry is appended exactly when its flag is set. */
  lemma ConsensusSliceStep(rows: seq<ConsensusRow>, flags: seq<bool>, k: nat)
    requires k < |rows| == |flags|
    ensures ConsensusEntries(Keep(rows, flags, k + 1))
         == ConsensusEntries(Keep(rows, flags, k)) + (if flags[k] then [ConsensusEntryOf(rows[k])] else [])
  {
    KeepStep(rows, flags, k);
  }

  /**
   * The second loop adds exactly one entry per consensus row where FinBERT
   * differs from the consensus, in order, each carrying that row's paragraph
   * and confidence.
   */
  lemma FinbertDisagreementsExact(rows: seq<ConsensusRow>)
    ensures var idx := Where(ConsensusDifferFlags(rows), |rows|);
      && |FinbertDisagreements(rows)| == |idx|
      && (forall k :: 0 <= k < |rows| && rows[k].consensus != rows[k].finbert ==> k in idx)
      && forall j :: 0 <= j < |idx| ==>
           rows[idx[j]].consensus != rows[idx[j]].finbert
           && FinbertDisagreements(rows)[j]
              == ConsensusEntry(rows[idx[j]].paragraph, FinbertDisagreementKind, rows[idx[j]].consensus,
                                rows[idx[j]].finbert, rows[idx[j]].confidence)
  {
    var flags := ConsensusDifferFlags(rows);
    KeepSelects(rows, flags, |rows|);
    forall k | 0 <= k < |rows| && rows[k].consensus != rows[k].finbert
      ensures k in Where(flags, |rows|)
    {
      assert flags[k];
    }
  }

  /** The entry lines 161-167 build for a disagreeing row. */
  function ListEntry(rows: seq<ConsensusRow>, row: ConsensusRow): (e: SliceEntry)
    ensures e.ConsensusListEntry? && e.kind == FinbertDisagreementKind
    ensures e.consensus == row.consensus && e.finbert == row.finbert
    ensures |e.paragraphs| == |rows| && |e.confidences| == |rows|
  {
    ConsensusListEntry(seq(|rows|, k requires 0 <= k < |rows| => rows[k].paragraph), FinbertDisagreementKind,
                       row.consensus, row.finbert,
                       seq(|rows|, k requires 0 <= k < |rows| => rows[k].confidence))
  }

  /** The lists of an as-written entry are `text_cons` and `f_conf_cons`, whichever row it is for. */
  lemma ListEntryHoldsWholeLists(rows: seq<ConsensusRow>, row: ConsensusRow)
    ensures var e := ListEntry(rows, row);
      forall k :: 0 <= k < |rows| ==>
        e.paragraphs[k] == rows[k].paragraph && e.confidences[k] == rows[k].confidence
  {
  }

  /**
   * Lines 158-168 as written: the entry for each disagreeing row stores the
   * whole `text_cons` and `f_conf_cons` lists rather than the row's own
   * paragraph and confidence.
   */
  method FinbertVsConsensusAsWritten(disagreements0: seq<SliceEntry>, rows: seq<ConsensusRow>)
    returns (disagreements: seq<SliceEntry>)
    ensures |disagreements| == |disagreements0| + |Where(ConsensusDifferFlags(rows), |rows|)|
    ensures disagreements[..|disagreements0|] == disagreements0
    ensures forall j :: |disagreements0| <= j < |disagreements| ==>
      disagreements[j] == ListEntry(rows, rows[Where(ConsensusDifferFlags(rows), |rows|)[j - |disagreements0|]])
  {
    disagreements := disagreements0;
    var differ := ConsensusDifferFlags(rows);
    var k := 0;
    while k < |rows|
      invariant 0 <= k <= |rows|
      invariant |disagreements| == |disagreements0| + |Where(differ, k)|
      invariant disagreements[..|disagreements0|] == disagreements0
      invariant forall j :: |disagreements0| <= j < |disagreements| ==>
        disagreements[j] == ListEntry(rows, rows[Where(differ, k)[j - |disagreements0|]])
    {
      var row := rows[k];
      if row.consensus != row.finbert {
        disagreements := disagreements + [ListEntry(rows, row)];
      }
      k := k + 1;
    }
  }

  /**
   * Two disagreeing rows with different paragraphs get entries with the same
   * paragraph field under the code as written, so the entry does not say
   * which paragraph it is about.
   */
  lemma ListEntriesLoseTheirParagraph()
    ensures var rows := [ConsensusRow("positive", "neutral", 0.9, "p1"),
                         ConsensusRow("negative", "neutral", 0.8, "p2")];
      && ListEntry(rows, rows[0]).paragraphs == ListEntry(rows, rows[1]).paragraphs == ["p1", "p2"]
      && FinbertDisagreements(rows)[0].paragraph == "p1"
      && FinbertDisagreements(rows)[1].paragraph == "p2"
  {
    var rows := [ConsensusRow("positive", "neutral", 0.9, "p1"),
                 ConsensusRow("negative", "neutral", 0.8, "p2")];
    assert ConsensusDifferFlags(rows) == [true, true];
    assert Where(ConsensusDifferFlags(rows), 2) == [0, 1];
  }

  // ---------------------------------------------------------------------------
  // The evaluation in `main`
  // ---------------------------------------------------------------------------

  /** One line of FinBERT's predictions file. */
  datatype Prediction = Prediction(finbertLabel: string, confidence: real, paragraph: string)

  function PredictedLabels(preds: seq<Prediction>): (f: seq<string>)
    ensures |f| == |preds|
  {
    seq(|preds|, k requires 0 <= k < |preds| => preds[k].finbertLabel)
  }

  function Confidences(preds: seq<Prediction>): (c: seq<real>)
    ensures |c| == |preds|
  {
    seq(|preds|, k requires 0 <= k < |preds| => preds[k].confidence)
  }

  function Paragraphs(preds: seq<Prediction>): (t: seq<string>)
    ensures |t| == |preds|
  {
    seq(|preds|, k requires 0 <= k < |preds| => preds[k].paragraph)
  }

  /** Why `main` stops before writing the report. */
  datatype EvalError =
      /** Line 100: the `assert` on the four lengths fails. */
    | LengthMismatch
      /** Line 103: `num_consensus / num_total` with no items divides by zero. */
    | NoItems
      /** Line 124: `classification_metrics` raises on an unexpected consensus or FinBERT label. */
    | UnexpectedLabels(labels: set<string>)

  /** The counts, scores and slices of the agreement report. */
  datatype Report = Report(numTotal: nat, numConsensus: nat,
                           kappaAB: Option<real>, kappaAF: Option<real>, kappaBF: Option<real>,
                           kappaConsensusF: Option<real>,
                           disagreements: seq<SliceEntry>, hardCases: seq<SliceEntry>)

  /** The consensus-only FinBERT rows `zip(c_cons, f_cons, f_conf_cons, text_cons)` (lines 112-118, 158). */
  function ConsensusRows(a: seq<string>, b: seq<string>, preds: seq<Prediction>): seq<ConsensusRow> {
    var flags := AgreeFlags(a, b);
    Zip4(KeepFlagged(ConsensusResponses(a, b), flags), KeepFlagged(PredictedLabels(preds), flags),
         KeepFlagged(Confidences(preds), flags), KeepFlagged(Paragraphs(preds), flags))
  }

  /**
   * Lines 91-168 of `main`, from the loaded columns to the report contents:
   * `num_data` items in the synthetic dataset, the analysts' labels `a` and
   * `b`, FinBERT's predictions `preds`, the confidence threshold and sklearn's
   * kappa as `cohen`.
   */
  method Evaluate(numData: nat, a: seq<string>, b: seq<string>, preds: seq<Prediction>, threshold: real,
                  cohen: (seq<nat>, seq<nat>) -> Option<real>)
    returns (r: Result<Report, EvalError>)
    ensures r == Failure(LengthMismatch) <==> !(numData == |preds| == |a| == |b|)
    ensures r == Failure(NoItems) <==> numData == |preds| == |a| == |b| == 0
    ensures r.Failure? && r.error.UnexpectedLabels? ==>
      var flags := AgreeFlags(a, b);
      r.error.labels != {}
      && (BadLabels(KeepFlagged(a, flags)) != {} ==> r.error.labels == BadLabels(KeepFlagged(a, flags)))
      && (BadLabels(KeepFlagged(a, flags)) == {} ==>
            r.error.labels == BadLabels(KeepFlagged(PredictedLabels(preds), flags)))
    ensures r.Success? ==>
      var flags := AgreeFlags(a, b);
      var f := PredictedLabels(preds);
      && numData == |preds| == |a| == |b| > 0
      && BadLabels(KeepFlagged(a, flags)) == {} && BadLabels(KeepFlagged(f, flags)) == {}
      && r.value.numTotal == numData
      && r.value.numConsensus == NumTrue(flags, |flags|)
      && r.value.kappaAB == KappaScore(a, b, cohen)
      && r.value.kappaAF == KappaScore(a, f, cohen)
      && r.value.kappaBF == KappaScore(b, f, cohen)
      && r.value.kappaConsensusF == KappaScore(KeepFlagged(a, flags), KeepFlagged(f, flags), cohen)
      && r.value.hardCases == HardCases(Zip5(a, b, f, Confidences(preds), Paragraphs(preds)), threshold)
      && r.value.disagreements
         == HumanDisagreements(Zip5(a, b, f, Confidences(preds), Paragraphs(preds)))
            + FinbertDisagreements(ConsensusRows(a, b, preds))
  {
    var f, fConf, text := PredictedLabels(preds), Confidences(preds), Paragraphs(preds);
    var resp, flags := ConsensusCheck(a, b);

    if !(numData == |f| == |a| == |b|) {
      return Failure(LengthMismatch);
    }
    var numTotal := numData;
    var numConsensus := NumTrue(flags, |flags|);
    if numTotal == 0 {
      return Failure(NoItems);
    }

    var kappaAB := KappaScore(a, b, cohen);
    var kappaAF := KappaScore(a, f, cohen);
    var kappaBF := KappaScore(b, f, cohen);

    ConsensusSubsetsCoincide(a, b);
    var cCons := KeepFlagged(resp, flags);
    var fCons := KeepFlagged(f, flags);
    var fConfCons := KeepFlagged(fConf, flags);
    var textCons := KeepFlagged(text, flags);

    var kappaConsensusF := KappaScore(cCons, fCons, cohen);
    // classification_metrics(c_cons, f_cons) converts both lists and raises on the first bad one
    var cIds := LabelToId(cCons);
    if cIds.Failure? {
      return Failure(UnexpectedLabels(cIds.error));
    }
    var fIds := LabelToId(fCons);
    if fIds.Failure? {
      return Failure(UnexpectedLabels(fIds.error));
    }

    var disagreements, hardCases := SliceCases(Zip5(a, b, f, fConf, text), threshold);
    disagreements := FinbertVsConsensus(disagreements, Zip4(cCons, fCons, fConfCons, textCons));
    r := Success(Report(numTotal, numConsensus, kappaAB, kappaAF, kappaBF, kappaConsensusF,
                        disagreements, hardCases));
  }
}

=== FILE: generate_dataset.dfy ===
/**
 * Model of `generate_ec` in scripts/generate_dataset.py: the loop that asks
 * the language model for batches of labelled paragraphs until TARGET records
 * are collected, logging every response it cannot use.
 *
 * The model is not called here: its answers are the finite sequence
 * `responses`, consumed one per iteration. The Python loop has no attempt
 * cap, so the method also stops when `responses` runs out and reports how
 * many answers it used.
 */
module GenerateDataset {
  import opened Wrappers
  import opened JsonValue
  import opened JsonCleaner
  import opened ValidateFormat

  /** TARGET: the number of records one run collects. */
  const Target: nat := 50

  /** An accepted record: only the two schema fields of the item ("label" is `sentiment` here). */
  datatype Record = Record(paragraph: string, sentiment: string)

  /** A logged failure: the raw response and the reason it was refused. */
  datatype FailureRecord = FailureRecord(raw: string, error: string)

  /** What the loop has accumulated: `dataset` and `failures`. */
  datatype GenState = GenState(dataset: seq<Record>, failures: seq<FailureRecord>)

  predicate AllLabelled(records: seq<Record>) {
    forall k :: 0 <= k < |records| ==> IsLabel(records[k].sentiment)
  }

  /** `repr(e)` for the exceptions `safe_load_json` raises. */
  function ErrorRepr(e: LoadError): (m: string)
    ensures |m| > 0
  {
    match e
    case EmptyResponse => "ValueError('Empty response')"
    case NoArrayFound => "ValueError('No JSON array found in text. LLM ouput could not be parsed.')"
    case ParseFailed => "JSONDecodeError(...)"
  }

  /** Lines 80-81: the record built from an accepted item keeps only its paragraph and label. */
  function ToRecord(item: Json): (r: Record)
    requires ValidItem(item)
    ensures IsLabel(r.sentiment)
    ensures item.fields["paragraph"] == Str(r.paragraph) && item.fields["label"] == Str(r.sentiment)
  {
    Record(item.fields["paragraph"].s, item.fields["label"].s)
  }

  /** The records built from a run of accepted items, one per item and in order. */
  function Records(items: seq<Json>): (r: seq<Record>)
    requires forall k :: 0 <= k < |items| ==> ValidItem(items[k])
    ensures |r| == |items|
    ensures forall k :: 0 <= k < |items| ==> r[k] == ToRecord(items[k])
    ensures AllLabelled(r)
  {
    if items == [] then []
    else Records(items[..|items| - 1]) + [ToRecord(items[|items| - 1])]
  }

  /** The items of a batch that fit in the `room` left below TARGET, in order. */
  function Taken(items: seq<Json>, room: nat): (r: seq<Json>)
    ensures |r| <= room && |r| <= |items|
    ensures |r| == room || |r| == |items|
    ensures r == items[..|r|]
  {
    if |items| <= room then items else items[..room]
  }

  /**
   * Lines 68-86: what an iteration does with the outcome `loaded` of
   * `safe_load_json(raw)`, with `i` being the length of the dataset.
   */
  function Absorb(s: GenState, raw: string, loaded: Result<Json, LoadError>): (r: GenState)
    requires |s.dataset| < Target
    ensures |s.dataset| <= |r.dataset| <= Target
  {
    match loaded
    case Failure(e) =>
      GenState(s.dataset, s.failures + [FailureRecord(raw, ErrorRepr(e))])
    case Success(data) =>
      var (ok, err) := ValidateJson(data);
      if !ok then
        GenState(s.dataset, s.failures + [FailureRecord(raw, err.value)])
      else
        GenState(s.dataset + Records(Taken(data.items, Target - |s.dataset|)), s.failures)
  }

  /**
   * One iteration only appends: earlier records and failures are kept, and
   * either exactly one failure is logged and the dataset is left alone, or
   * nothing is logged.
   */
  lemma AbsorbOnlyAppends(s: GenState, raw: string, loaded: Result<Json, LoadError>)
    requires |s.dataset| < Target
    ensures var r := Absorb(s, raw, loaded);
      && r.dataset[..|s.dataset|] == s.dataset && r.failures[..|s.failures|] == s.failures
      && (|| (r.dataset == s.dataset && |r.failures| == |s.failures| + 1)
          || r.failures == s.failures)
  {
    match loaded
    case Failure(e) =>
      LoadFailureLogged(s, raw, e);
    case Success(data) =>
      if Conforms(data) {
        BatchCollected(s, raw, data);
        var added := Records(Taken(data.items, Target - |s.dataset|));
        assert (s.dataset + added)[..|s.dataset|] == s.dataset;
      } else {
        InvalidBatchLogged(s, raw, data);
      }
  }

  /** Records collected by one iteration carry one of the three labels. */
  lemma AbsorbKeepsLabels(s: GenState, raw: string, loaded: Result<Json, LoadError>)
    requires |s.dataset| < Target
    requires AllLabelled(s.dataset)
    ensures AllLabelled(Absorb(s, raw, loaded).dataset)
  {
    if loaded.Success? && Conforms(loaded.value) {
      var added := Records(Taken(loaded.value.items, Target - |s.dataset|));
      BatchCollected(s, raw, loaded.value);
      LabelledAppend(s.dataset, added);
    }
  }

  lemma LabelledAppend(a: seq<Record>, b: seq<Record>)
    requires AllLabelled(a) && AllLabelled(b)
    ensures AllLabelled(a + b)
  {
    forall k | 0 <= k < |a + b|
      ensures IsLabel((a + b)[k].sentiment)
    {
      if k < |a| {
        assert (a + b)[k] == a[k];
      } else {
        assert (a + b)[k] == b[k - |a|];
      }
    }
  }

  /**
   * The loop run on `responses` from position `from` and state `s`, each
   * response going through `load` (`safe_load_json`): the final state and the
   * position reached, that is, how many responses were used in all. It stops
   * as soon as the dataset is full.
   */
  function Run(s: GenState, responses: seq<string>, from: nat, load: string -> Result<Json, LoadError>)
    : (r: (GenState, nat))
    requires |s.dataset| <= Target && from <= |responses|
    ensures from <= r.1 <= |responses|
    ensures r.1 < |responses| ==> |r.0.dataset| == Target
    decreases |responses| - from
  {
    if |s.dataset| == Target || from == |responses| then (s, from)
    else Run(Absorb(s, responses[from], load(responses[from])), responses, from + 1, load)
  }

  /** `safe_load_json` as a value, with the codec and the parser it depends on fixed. */
  function Loader(decode: string -> Option<string>, parse: string -> Option<Json>)
    : (load: string -> Result<Json, LoadError>)
  {
    raw => SafeLoadJson(raw, decode, parse)
  }

  /**
   * `generate_ec()`, with `safe_load_json` built from the codec and the
   * parser it depends on.
   */
  method GenerateEc(responses: seq<string>, decode: string -> Option<string>, parse: string -> Option<Json>)
    returns (dataset: seq<Record>, failures: seq<FailureRecord>, consumed: nat)
    ensures (GenState(dataset, failures), consumed) == Run(GenState([], []), responses, 0, Loader(decode, parse))
    ensures consumed <= |responses|
    ensures |dataset| <= Target
    ensures consumed < |responses| ==> |dataset| == Target
    ensures AllLabelled(dataset)
  {
    dataset, failures, consumed := Collect(responses, Loader(decode, parse));
  }

  /**
   * The loop of `generate_ec()` over any loader: the counter `i`, the
   * `dataset` and the `failures` lists, with `continue` after a failed
   * validation and `break` out of the item loop once TARGET records are in.
   */
  method Collect(responses: seq<string>, load: string -> Result<Json, LoadError>)
    returns (dataset: seq<Record>, failures: seq<FailureRecord>, consumed: nat)
    ensures (GenState(dataset, failures), consumed) == Run(GenState([], []), responses, 0, load)
    ensures consumed <= |responses|
    ensures |dataset| <= Target
    ensures consumed < |responses| ==> |dataset| == Target
    ensures AllLabelled(dataset)
  {
    ghost var final := Run(GenState([], []), responses, 0, load);
    dataset, failures := [], [];
    var i := 0;
    consumed := 0;
    while i < Target && consumed < |responses|
      invariant i == |dataset| <= Target
      invariant consumed <= |responses|
      invariant AllLabelled(dataset)
      invariant final == Run(GenState(dataset, failures), responses, consumed, load)
      decreases |responses| - consumed
    {
      var raw := responses[consumed];
      var loaded := load(raw);
      RunStep(GenState(dataset, failures), responses, consumed, load);
      dataset, failures, i := AbsorbResponse(dataset, failures, i, raw, loaded);
      consumed := consumed + 1;
    }
    RunDone(GenState(dataset, failures), responses, consumed, load);
  }

  /**
   * The body of the `while` loop, given the outcome `loaded` of
   * `safe_load_json(raw)`: log the failure and `continue`, or append the
   * batch's records.
   */
  method AbsorbResponse(dataset0: seq<Record>, failures0: seq<FailureRecord>, i0: nat,
                        raw: string, loaded: Result<Json, LoadError>)
    returns (dataset: seq<Record>, failures: seq<FailureRecord>, i: nat)
    requires i0 == |dataset0| < Target
    requires AllLabelled(dataset0)
    ensures GenState(dataset, failures) == Absorb(GenState(dataset0, failures0), raw, loaded)
    ensures i == |dataset| <= Target
    ensures AllLabelled(dataset)
  {
    ghost var before := GenState(dataset0, failures0);
    dataset, failures, i := dataset0, failures0, i0;
    if loaded.Failure? {
      // the `except Exception` branch
      LoadFailureLogged(before, raw, loaded.error);
      failures := failures + [FailureRecord(raw, ErrorRepr(loaded.error))];
      return;
    }
    var data := loaded.value;
    var (ok, err) := ValidateJson(data);
    if !ok {
      InvalidBatchLogged(before, raw, data);
      failures := failures + [FailureRecord(raw, err.value)];
      return;
    }
    BatchCollected(before, raw, data);
    dataset, i := AppendBatch(dataset, i, data.items);
  }

  /** The run from a state that still has room, with responses left, is the run from its successor. */
  lemma RunStep(s: GenState, responses: seq<string>, from: nat, load: string -> Result<Json, LoadError>)
    requires |s.dataset| < Target && from < |responses|
    ensures Run(s, responses, from, load)
         == Run(Absorb(s, responses[from], load(responses[from])), responses, from + 1, load)
  {
  }

  /** A full dataset, or no response left, ends the run where it is. */
  lemma RunDone(s: GenState, responses: seq<string>, from: nat, load: string -> Result<Json, LoadError>)
    requires |s.dataset| <= Target && from <= |responses|
    requires |s.dataset| == Target || from == |responses|
    ensures Run(s, responses, from, load) == (s, from)
  {
  }

  /**
   * Lines 76-82: `for item in data`, appending one record per item and
   * breaking out once `i` reaches TARGET.
   */
  method AppendBatch(dataset0: seq<Record>, i0: nat, items: seq<Json>) returns (dataset: seq<Record>, i: nat)
    requires i0 == |dataset0| < Target
    requires forall k :: 0 <= k < |items| ==> ValidItem(items[k])
    ensures i == |dataset| <= Target
    ensures dataset == dataset0 + Records(Taken(items, Target - i0))
  {
    dataset, i := dataset0, i0;
    var n := 0;
    while n < |items|
      invariant 0 <= n <= |items|
      invariant i == |dataset| == i0 + n <= Target
      invariant dataset == dataset0 + Records(items[..n])
      decreases |items| - n
    {
      if i >= Target {
        break;
      }
      var item := items[n];
      assert items[..n + 1][..n] == items[..n];
      dataset := dataset + [Record(item.fields["paragraph"].s, item.fields["label"].s)];
      i := i + 1;
      n := n + 1;
    }
    assert n == |items| ==> items[..n] == items;
  }

  // ---------------------------------------------------------------------------
  // What one iteration does, case by case
  // ---------------------------------------------------------------------------

  /** A response whose cleaning or parsing raised logs one failure carrying `repr(e)` and nothing else. */
  lemma LoadFailureLogged(s: GenState, raw: string, e: LoadError)
    requires |s.dataset| < Target
    ensures Absorb(s, raw, Failure(e)) == GenState(s.dataset, s.failures + [FailureRecord(raw, ErrorRepr(e))])
  {
  }

  /**
   * A response that parses but breaks the schema logs one failure carrying the
   * validator's message, and leaves the dataset as it was.
   */
  lemma InvalidBatchLogged(s: GenState, raw: string, data: Json)
    requires |s.dataset| < Target
    requires !Conforms(data)
    ensures ValidateJson(data).1.Some?
    ensures Absorb(s, raw, Success(data))
         == GenState(s.dataset, s.failures + [FailureRecord(raw, ValidateJson(data).1.value)])
  {
  }

  /**
   * A valid batch appends its items' records in order, no more than the room
   * left below TARGET, and logs nothing.
   */
  lemma ValidBatchAppended(s: GenState, raw: string, data: Json)
    requires |s.dataset| < Target
    requires Conforms(data)
    ensures var r := Absorb(s, raw, Success(data));
      var added := if |data.items| <= Target - |s.dataset| then |data.items| else Target - |s.dataset|;
      && r.failures == s.failures
      && |r.dataset| == |s.dataset| + added
      && r.dataset[..|s.dataset|] == s.dataset
      && forall k :: 0 <= k < added ==> r.dataset[|s.dataset| + k] == ToRecord(data.items[k])
  {
  }

  /** A valid batch adds the records of the items that fit, and logs nothing. */
  lemma BatchCollected(s: GenState, raw: string, data: Json)
    requires |s.dataset| < Target
    requires Conforms(data)
    ensures Absorb(s, raw, Success(data))
         == GenState(s.dataset + Records(Taken(data.items, Target - |s.dataset|)), s.failures)
  {
  }

  /** A valid empty array changes neither the dataset nor the failure log. */
  lemma EmptyBatchChangesNothing(s: GenState, raw: string)
    requires |s.dataset| < Target
    ensures Absorb(s, raw, Success(Arr([]))) == s
  {
  }

  /**
   * The loop only ever appends to the dataset: it stays within TARGET,
   * records already collected are kept as they are, and every collected
   * record carries one of the three labels.
   */
  lemma {:induction false} RunOnlyAppends(s: GenState, responses: seq<string>, from: nat,
                                          load: string -> Result<Json, LoadError>)
    requires |s.dataset| <= Target && from <= |responses|
    ensures var r := Run(s, responses, from, load).0;
      && |s.dataset| <= |r.dataset| <= Target
      && r.dataset[..|s.dataset|] == s.dataset
      && (AllLabelled(s.dataset) ==> AllLabelled(r.dataset))
    decreases |responses| - from
  {
    if |s.dataset| < Target && from < |responses| {
      var after := Absorb(s, responses[from], load(responses[from]));
      AbsorbOnlyAppends(s, responses[from], load(responses[from]));
      if AllLabelled(s.dataset) {
        AbsorbKeepsLabels(s, responses[from], load(responses[from]));
      }
      RunOnlyAppends(after, responses, from + 1, load);
      var r := Run(after, responses, from + 1, load).0;
      assert r.dataset[..|s.dataset|] == r.dataset[..|after.dataset|][..|s.dataset|];
    }
  }

  /** One iteration logs at most one failure and keeps the earlier ones. */
  lemma AbsorbLogsAtMostOne(s: GenState, raw: string, loaded: Result<Json, LoadError>)
    requires |s.dataset| < Target
    ensures var r := Absorb(s, raw, loaded);
      && |s.failures| <= |r.failures| <= |s.failures| + 1
      && r.failures[..|s.failures|] == s.failures
  {
    AbsorbOnlyAppends(s, raw, loaded);
  }

  /** Failures are only ever appended: earlier entries are kept. */
  lemma {:induction false} FailuresOnlyAppended(s: GenState, responses: seq<string>, from: nat,
                                                load: string -> Result<Json, LoadError>)
    requires |s.dataset| <= Target && from <= |responses|
    ensures var r := Run(s, responses, from, load).0;
      && |s.failures| <= |r.failures|
      && r.failures[..|s.failures|] == s.failures
    decreases |responses| - from
  {
    if |s.dataset| < Target && from < |responses| {
      var after := Absorb(s, responses[from], load(responses[from]));
      AbsorbLogsAtMostOne(s, responses[from], load(responses[from]));
      FailuresOnlyAppended(after, responses, from + 1, load);
      RunStep(s, responses, from, load);
      var r := Run(after, responses, from + 1, load).0;
      assert r.failures[..|s.failures|] == r.failures[..|after.failures|][..|s.failures|];
    }
  }

  /** Each failure comes from a distinct response: at most one per response used. */
  lemma {:induction false} FailuresBoundedByResponses(s: GenState, responses: seq<string>, from: nat,
                                                      load: string -> Result<Json, LoadError>)
    requires |s.dataset| <= Target && from <= |responses|
    ensures var r := Run(s, responses, from, load);
      |r.0.failures| <= |s.failures| + (r.1 - from)
    decreases |responses| - from
  {
    if |s.dataset| < Target && from < |responses| {
      AbsorbLogsAtMostOne(s, responses[from], load(responses[from]));
      FailuresBoundedByResponses(Absorb(s, responses[from], load(responses[from])), responses, from + 1, load);
      RunStep(s, responses, from, load);
    }
  }
}

=== FILE: json_cleaner.dfy ===
/**
 * Model of utils/json_cleaner.py: the clean-up that turns a raw completion of
 * the language model into the text handed to `json.loads`, and the extraction
 * of the bracketed array from that text.
 *
 * `json.loads` and the `unicode_escape` codec are not modelled: they are the
 * parameters `parse` and `decode`, partial functions that answer None where
 * Python raises.
 */
module JsonCleaner {
  import opened Wrappers
  import opened JsonValue

  /** The exceptions `safe_load_json` lets escape. */
  datatype LoadError =
    | EmptyResponse   // ValueError("Empty response")
    | NoArrayFound    // ValueError raised by extract_json_array
    | ParseFailed     // the JSONDecodeError raised by json.loads

  /** Python's `str.isspace` on one character: what `str.strip()` removes. */
  predicate IsSpace(c: char) {
    || '\t' <= c <= '\r'
    || '\U{1c}' <= c <= ' '
    || c == '\U{85}' || c == '\U{a0}' || c == '\U{1680}'
    || '\U{2000}' <= c <= '\U{200a}'
    || c == '\U{2028}' || c == '\U{2029}' || c == '\U{202f}' || c == '\U{205f}'
    || c == '\U{3000}'
  }

  /** Text that `text.strip() == ""` finds empty: nothing but whitespace. */
  predicate Blank(text: string) {
    forall k :: 0 <= k < |text| ==> IsSpace(text[k])
  }

  /** The two character sets the module strips: `strip()` and `strip("`")`. */
  datatype StripSet = Whitespace | Backtick

  predicate Strippable(c: char, chars: StripSet) {
    match chars
    case Whitespace => IsSpace(c)
    case Backtick => c == '`'
  }

  /** Where `lstrip` starts: the first kept character of `s` at or after `i`, or `|s|`. */
  function SkipFrom(s: string, i: nat, chars: StripSet): (a: nat)
    requires i <= |s|
    ensures i <= a <= |s|
    ensures forall k :: i <= k < a ==> Strippable(s[k], chars)
    ensures a == |s| || !Strippable(s[a], chars)
    decreases |s| - i
  {
    if i < |s| && Strippable(s[i], chars) then SkipFrom(s, i + 1, chars) else i
  }

  /** Where `rstrip` ends: the end of `s[..j]` less its strippable tail, never below `lo`. */
  function BackFrom(s: string, lo: nat, j: nat, chars: StripSet): (b: nat)
    requires lo <= j <= |s|
    ensures lo <= b <= j
    ensures forall k :: b <= k < j ==> Strippable(s[k], chars)
    ensures b == lo || !Strippable(s[b - 1], chars)
    decreases j
  {
    if lo < j && Strippable(s[j - 1], chars) then BackFrom(s, lo, j - 1, chars) else j
  }

  /** `r` is `s[i..i + |r|]` and everything of `s` around it is strippable. */
  predicate StrippedAt(s: string, r: string, i: nat, chars: StripSet) {
    && i + |r| <= |s|
    && r == s[i..i + |r|]
    && (forall k :: 0 <= k < i ==> Strippable(s[k], chars))
    && (forall k :: i + |r| <= k < |s| ==> Strippable(s[k], chars))
  }

  /** Python's `s.strip()` (Whitespace) and `s.strip("`")` (Backtick). */
  function Strip(s: string, chars: StripSet): (r: string)
    ensures |r| <= |s|
    ensures r == [] || (!Strippable(r[0], chars) && !Strippable(r[|r| - 1], chars))
  {
    var a := SkipFrom(s, 0, chars);
    s[a..BackFrom(s, a, |s|, chars)]
  }

  /** Strip leaves nothing exactly when every character is strippable. */
  lemma StripEmptyIffAllStrippable(s: string, chars: StripSet)
    ensures Strip(s, chars) == [] <==> forall k :: 0 <= k < |s| ==> Strippable(s[k], chars)
  {
    var a := SkipFrom(s, 0, chars);
    var b := BackFrom(s, a, |s|, chars);
    if a < |s| {
      assert !Strippable(s[a], chars);
      assert a < b;
    }
  }

  /** Strip removes only strippable characters, and only from the two ends. */
  lemma StripKeepsMiddle(s: string, chars: StripSet)
    ensures exists i :: StrippedAt(s, Strip(s, chars), i, chars)
  {
    var a := SkipFrom(s, 0, chars);
    var b := BackFrom(s, a, |s|, chars);
    assert Strip(s, chars) == s[a..b];
    assert StrippedAt(s, Strip(s, chars), a, chars);
  }

  /** The position of the first `c` in `s`, as `s.find(c)` but None for -1. */
  function IndexOf(s: string, c: char): (r: Option<nat>)
    ensures r.None? <==> c !in s
    ensures r.Some? ==> r.value < |s| && s[r.value] == c
    ensures r.Some? ==> forall k :: 0 <= k < r.value ==> s[k] != c
  {
    if s == [] then None
    else if s[0] == c then Some(0)
    else match IndexOf(s[1..], c)
      case None => None
      case Some(k) => Some(k + 1)
  }

  /** The position of the last `c` in `s`, as `s.rfind(c)` but None for -1. */
  function LastIndexOf(s: string, c: char): (r: Option<nat>)
    ensures r.None? <==> c !in s
    ensures r.Some? ==> r.value < |s| && s[r.value] == c
    ensures r.Some? ==> forall k :: r.value < k < |s| ==> s[k] != c
  {
    if s == [] then None
    else if s[|s| - 1] == c then Some(|s| - 1)
    else LastIndexOf(s[..|s| - 1], c)
  }

  // ---------------------------------------------------------------------------
  // extract_json_array
  // ---------------------------------------------------------------------------

  /** Some '[' comes before some ']': the regex `\[.*\]` can match. */
  predicate HasBracketPair(text: string) {
    exists i, j :: 0 <= i < j < |text| && text[i] == '[' && text[j] == ']'
  }

  /** `text[i..j + 1]` runs from the first '[' of `text` to its last ']'. */
  predicate WidestSpan(text: string, i: int, j: int) {
    && 0 <= i < j < |text|
    && text[i] == '[' && text[j] == ']'
    && (forall k :: 0 <= k < i ==> text[k] != '[')
    && (forall k :: j < k < |text| ==> text[k] != ']')
  }

  /**
   * `re.search(r"\[.*\]", text, re.DOTALL)`: the leftmost start is the first
   * '[' (if any ']' follows it, so does one for every later '['), and the
   * greedy `.*`, which crosses newlines under DOTALL, runs to the last ']'.
   */
  function ExtractJsonArray(text: string): (r: Result<string, LoadError>)
    ensures r.Success? <==> HasBracketPair(text)
    ensures r.Success? ==> exists i, j :: WidestSpan(text, i, j) && r.value == text[i..j + 1]
    ensures r.Failure? ==> r.error == NoArrayFound
  {
    match (IndexOf(text, '['), LastIndexOf(text, ']'))
    case (Some(i), Some(j)) =>
      if i < j then
        assert WidestSpan(text, i, j);
        Success(text[i..j + 1])
      else
        Failure(NoArrayFound)
    case _ => Failure(NoArrayFound)
  }

  // ---------------------------------------------------------------------------
  // safe_load_json, stage by stage
  // ---------------------------------------------------------------------------

  const Fence: string := "```"

  predicate StartsWithFence(text: string) {
    |text| >= 3 && text[..3] == Fence
  }

  /**
   * `re.sub(r"^```.*?\n", "", text, flags=re.DOTALL)`. Without MULTILINE `^`
   * only matches at the start of the text, so at most one prefix goes: the
   * fence marker, the shortest run after it, and the first newline after it.
   */
  function RemoveFence(text: string): (r: string)
    ensures |r| <= |text| && r == text[|text| - |r|..]
    ensures if StartsWithFence(text) && '\n' in text[3..] then
              var cut := |text| - |r|;
              4 <= cut && text[cut - 1] == '\n' && '\n' !in text[3..cut - 1]
            else r == text
  {
    if StartsWithFence(text) then
      match IndexOf(text[3..], '\n')
      case Some(k) =>
        assert text[3..][..k] == text[3..3 + k];
        text[3 + k + 1..]
      case None => text
    else text
  }

  /** Line 23: `text.strip().strip("`").strip()`. */
  function StripStage(text: string): (r: string)
    ensures r == [] || (!IsSpace(r[0]) && !IsSpace(r[|r| - 1]))
    ensures |r| <= |text|
  {
    Strip(Strip(Strip(text, Whitespace), Backtick), Whitespace)
  }

  /** The test at lines 26-27: same quote kind at both ends (one character counts). */
  predicate Quoted(text: string) {
    && |text| >= 1
    && ((text[0] == '\'' && text[|text| - 1] == '\'') || (text[0] == '"' && text[|text| - 1] == '"'))
  }

  /** Python's `text[1:-1]`: empty when the text has fewer than two characters. */
  function Inner(text: string): (r: string)
    ensures |text| >= 2 ==> text == [text[0]] + r + [text[|text| - 1]]
    ensures |text| < 2 ==> r == []
  {
    if |text| >= 2 then text[1..|text| - 1] else []
  }

  /**
   * Lines 26-31: drop one pair of matching quotes and decode the escapes of
   * what is inside; a failed decode leaves `text` as it was, quotes and all.
   */
  function UnwrapQuotes(text: string, decode: string -> Option<string>): (r: string)
    ensures !Quoted(text) ==> r == text
    ensures Quoted(text) && decode(Inner(text)).None? ==> r == text
    ensures Quoted(text) && decode(Inner(text)).Some? ==> r == decode(Inner(text)).value
  {
    if Quoted(text) then
      match decode(Inner(text))
      case Some(decoded) => decoded
      case None => text
    else text
  }

  /** Lines 34-35: the array is cut out only when both brackets occur. */
  function ExtractIfBracketed(text: string): (r: Result<string, LoadError>)
    ensures !('[' in text && ']' in text) ==> r == Success(text)
    ensures '[' in text && ']' in text ==> r == ExtractJsonArray(text)
    ensures r.Failure? ==> r.error == NoArrayFound
  {
    if '[' in text && ']' in text then ExtractJsonArray(text) else Success(text)
  }

  /** Everything `safe_load_json` does to `text` before `json.loads`. */
  function Sanitize(text: string, decode: string -> Option<string>): (r: Result<string, LoadError>)
    ensures r == Failure(EmptyResponse) <==> Blank(text)
    ensures r.Failure? ==> r.error != ParseFailed
  {
    StripEmptyIffAllStrippable(text, Whitespace);
    if Strip(text, Whitespace) == [] then Failure(EmptyResponse)
    else ExtractIfBracketed(UnwrapQuotes(StripStage(RemoveFence(text)), decode))
  }

  /** `safe_load_json(text)`, with `json.loads` given as `parse`. */
  function SafeLoadJson(text: string, decode: string -> Option<string>, parse: string -> Option<Json>)
    : (r: Result<Json, LoadError>)
    ensures r == Failure(EmptyResponse) <==> Blank(text)
    ensures r.Success? ==> Sanitize(text, decode).Success? && parse(Sanitize(text, decode).value) == Some(r.value)
    ensures r == Failure(ParseFailed) ==> Sanitize(text, decode).Success? && parse(Sanitize(text, decode).value).None?
    ensures Sanitize(text, decode).Failure? ==> r == Failure(Sanitize(text, decode).error)
    ensures Sanitize(text, decode).Success? ==> (r.Success? <==> parse(Sanitize(text, decode).value).Some?)
    ensures Sanitize(text, decode).Success? && parse(Sanitize(text, decode).value).None? ==> r == Failure(ParseFailed)
  {
    match Sanitize(text, decode)
    case Failure(e) => Failure(e)
    case Success(clean) =>
      match parse(clean)
      case Some(data) => Success(data)
      case None => Failure(ParseFailed)
  }

  // ---------------------------------------------------------------------------
  // Properties
  // ---------------------------------------------------------------------------

  /** The regex needs a '[' BEFORE a ']': "]x[" holds both and still fails. */
  lemma BracketsInWrongOrderFail()
    ensures ExtractJsonArray("]x[") == Failure(NoArrayFound)
    ensures ExtractIfBracketed("]x[") == Failure(NoArrayFound)
  {
    assert !HasBracketPair("]x[");
  }

  /** The extracted array opens with '[' and closes with ']'. */
  lemma ExtractedSpanIsBracketed(text: string)
    requires ExtractJsonArray(text).Success?
    ensures var s := ExtractJsonArray(text).value; |s| >= 2 && s[0] == '[' && s[|s| - 1] == ']'
  {
    var s := ExtractJsonArray(text).value;
    var i, j :| WidestSpan(text, i, j) && s == text[i..j + 1];
  }

  /** `rstrip` stops at `m` when everything from `m` to `j` is strippable and the character before `m` is kept. */
  lemma {:induction false} BackFromStopsAt(s: string, lo: nat, m: nat, j: nat, chars: StripSet)
    requires lo <= m <= j <= |s|
    requires forall k :: m <= k < j ==> Strippable(s[k], chars)
    requires m == lo || !Strippable(s[m - 1], chars)
    ensures BackFrom(s, lo, j, chars) == m
    decreases j
  {
    if m < j {
      BackFromStopsAt(s, lo, m, j - 1, chars);
    }
  }

  /** Strip of `p + t` is `p` when `p` is bordered by kept characters and `t` is strippable. */
  lemma StripDropsTail(p: string, t: string, chars: StripSet)
    requires |p| >= 1 && !Strippable(p[0], chars) && !Strippable(p[|p| - 1], chars)
    requires forall k :: 0 <= k < |t| ==> Strippable(t[k], chars)
    ensures Strip(p + t, chars) == p
  {
    var s := p + t;
    assert s[0] == p[0];
    assert SkipFrom(s, 0, chars) == 0;
    forall k | |p| <= k < |s|
      ensures Strippable(s[k], chars)
    {
      assert s[k] == t[k - |p|];
    }
    assert s[|p| - 1] == p[|p| - 1];
    BackFromStopsAt(s, 0, |p|, |s|, chars);
    assert s[0..|p|] == p;
  }

  /** An opening fence with a one-line tag is cut through its newline, and nothing more. */
  lemma {:induction false} FenceLineRemoved(tag: string, rest: string)
    requires '\n' !in tag
    ensures RemoveFence(Fence + tag + "\n" + rest) == rest
  {
    var text := Fence + tag + "\n" + rest;
    assert text[..3] == Fence;
    assert text[3..] == tag + "\n" + rest;
    var k := |tag|;
    var found := IndexOf(text[3..], '\n');
    assert text[3..][k] == '\n';
    assert found.Some? && found.value <= k;
    assert found.value == k;
    assert text[3 + k + 1..] == rest;
  }

  /** The strip stage takes a closing "\n```" off a payload bordered by brackets. */
  lemma {:induction false} ClosingFenceStripped(payload: string)
    requires |payload| >= 2 && payload[0] == '[' && payload[|payload| - 1] == ']'
    ensures StripStage(payload + "\n" + Fence) == payload
  {
    var rest := payload + "\n" + Fence;
    assert SkipFrom(rest, 0, Whitespace) == 0;
    assert BackFrom(rest, 0, |rest|, Whitespace) == |rest|;
    assert Strip(rest, Whitespace) == rest[0..|rest|] == rest;
    assert rest == (payload + "\n") + Fence;
    StripDropsTail(payload + "\n", Fence, Backtick);
    StripDropsTail(payload, "\n", Whitespace);
  }

  /** A payload that opens with '[' and closes with ']' is its own widest span. */
  lemma {:induction false} WholePayloadExtracted(payload: string)
    requires |payload| >= 2 && payload[0] == '[' && payload[|payload| - 1] == ']'
    ensures ExtractIfBracketed(payload) == Success(payload)
    ensures !Quoted(payload)
  {
    assert '[' in payload && ']' in payload;
    assert IndexOf(payload, '[') == Some(0);
    assert LastIndexOf(payload, ']') == Some(|payload| - 1);
    assert payload[0..|payload|] == payload;
  }

  /**
   * A bracketed payload fenced as a markdown code block, with any language tag
   * on the opening fence, comes out of the clean-up exactly as it went in.
   */
  lemma FencedArrayRoundTrip(tag: string, payload: string, decode: string -> Option<string>)
    requires '\n' !in tag
    requires |payload| >= 2 && payload[0] == '[' && payload[|payload| - 1] == ']'
    ensures Sanitize(Fence + tag + "\n" + payload + "\n" + Fence, decode) == Success(payload)
  {
    assert Fence + tag + "\n" + payload + "\n" + Fence == Fence + tag + "\n" + (payload + "\n" + Fence);
    FencedStagesCompose(tag, payload, payload + "\n" + Fence, decode);
  }

  /** The stages of the clean-up, one after the other, on a fenced payload. */
  lemma FencedStagesCompose(tag: string, payload: string, rest: string, decode: string -> Option<string>)
    requires '\n' !in tag
    requires |payload| >= 2 && payload[0] == '[' && payload[|payload| - 1] == ']'
    requires rest == payload + "\n" + Fence
    ensures Sanitize(Fence + tag + "\n" + rest, decode) == Success(payload)
  {
    var text := Fence + tag + "\n" + rest;
    FenceLineRemoved(tag, rest);
    ClosingFenceStripped(payload);
    WholePayloadExtracted(payload);
    FencedTextNotBlank(text);
    SanitizeByStages(text, rest, payload, decode);
  }

  /** Text opening with a backtick survives `strip()` non-empty. */
  lemma FencedTextNotBlank(text: string)
    requires |text| >= 1 && text[0] == '`'
    ensures Strip(text, Whitespace) != []
  {
    StripEmptyIffAllStrippable(text, Whitespace);
    assert !Strippable(text[0], Whitespace);
  }

  /** Sanitize is its stages run one after the other on text that is not blank. */
  lemma SanitizeByStages(text: string, afterFence: string, payload: string, decode: string -> Option<string>)
    requires Strip(text, Whitespace) != []
    requires RemoveFence(text) == afterFence
    requires StripStage(afterFence) == payload
    requires UnwrapQuotes(payload, decode) == payload
    requires ExtractIfBracketed(payload) == Success(payload)
    ensures Sanitize(text, decode) == Success(payload)
  {
  }

  /** A lone quote character counts as quoted; the decoder is handed the empty text. */
  lemma LoneQuoteIsUnwrapped(decode: string -> Option<string>)
    ensures Quoted("'") && Inner("'") == []
    ensures decode([]).Some? ==> UnwrapQuotes("'", decode) == decode([]).value
  {
  }
}

=== FILE: json_value.dfy ===
/**
 * The values `json.loads` produces: null, booleans, numbers, strings, lists
 * and dicts keyed by strings (a later duplicate key has already replaced an
 * earlier one, as in Python).
 */
module JsonValue {

  datatype Json =
    | Null
    | Bool(b: bool)
    | Num(n: real)
    | Str(s: string)
    | Arr(items: seq<Json>)
    | Obj(fields: map<string, Json>)
}

=== FILE: validate_format.dfy ===
/**
 * Model of src/synthec/utils/validate_format.py: the fixed JSON Schema a
 * generated batch must satisfy, and `validate_json`, which answers
 * `(True, None)` or `(False, message)`.
 *
 * The schema: an array whose items are objects that carry the required
 * properties "paragraph" (a string) and "label" (a string from a three-value
 * enum). It names no `additionalProperties` and no `minItems`, so extra keys
 * and the empty array are both accepted.
 */
module ValidateFormat {
  import opened Wrappers
  import opened JsonValue

  /** The `enum` of the "label" property, matched exactly (no case folding, no trimming). */
  predicate IsLabel(s: string) {
    s == "positive" || s == "neutral" || s == "negative"
  }

  /** An array item the `items` subschema accepts. */
  predicate ValidItem(item: Json) {
    && item.Obj?
    && "paragraph" in item.fields && item.fields["paragraph"].Str?
    && "label" in item.fields && item.fields["label"].Str?
    && IsLabel(item.fields["label"].s)
  }

  /** A value the whole schema accepts. */
  predicate Conforms(data: Json) {
    data.Arr? && forall k :: 0 <= k < |data.items| ==> ValidItem(data.items[k])
  }

  /** What is wrong with one array item. */
  datatype ItemProblem =
    | NotAnObject
    | MissingProperty(name: string)
    | NotAString(name: string)
    | NotInEnum(value: string)

  /** A schema violation: the value itself, or the item at `index`. */
  datatype Violation =
    | NotAnArray
    | AtItem(index: nat, problem: ItemProblem)

  /**
   * The first thing wrong with an item, in a fixed order of this model: the
   * object type, then the required keys, then the property types and the
   * label enum.
   */
  function ItemProblemOf(item: Json): (r: Option<ItemProblem>)
    ensures r.None? <==> ValidItem(item)
    ensures r == Some(NotAnObject) <==> !item.Obj?
    ensures r.Some? && r.value.MissingProperty? ==>
      && item.Obj? && (r.value.name == "paragraph" || r.value.name == "label")
      && r.value.name !in item.fields
    ensures r.Some? && r.value.NotAString? ==>
      && item.Obj? && (r.value.name == "paragraph" || r.value.name == "label")
      && r.value.name in item.fields && !item.fields[r.value.name].Str?
    ensures r.Some? && r.value.NotInEnum? ==>
      && item.Obj? && "label" in item.fields
      && item.fields["label"] == Str(r.value.value) && !IsLabel(r.value.value)
  {
    if !item.Obj? then Some(NotAnObject)
    else if "paragraph" !in item.fields then Some(MissingProperty("paragraph"))
    else if "label" !in item.fields then Some(MissingProperty("label"))
    else if !item.fields["paragraph"].Str? then Some(NotAString("paragraph"))
    else if !item.fields["label"].Str? then Some(NotAString("label"))
    else if !IsLabel(item.fields["label"].s) then Some(NotInEnum(item.fields["label"].s))
    else None
  }

  /** The first violating item at or after position `from`. */
  function FirstBadItem(items: seq<Json>, from: nat): (r: Option<Violation>)
    requires from <= |items|
    ensures r.None? <==> forall k :: from <= k < |items| ==> ValidItem(items[k])
    ensures r.Some? ==> r.value.AtItem? && from <= r.value.index < |items|
    ensures r.Some? ==> !ValidItem(items[r.value.index])
    ensures r.Some? ==> forall k :: from <= k < r.value.index ==> ValidItem(items[k])
    decreases |items| - from
  {
    if from == |items| then None
    else match ItemProblemOf(items[from])
      case Some(p) => Some(AtItem(from, p))
      case None => FirstBadItem(items, from + 1)
  }

  /** The violation `validate` reports, if any. */
  function Check(data: Json): (r: Option<Violation>)
    ensures r.None? <==> Conforms(data)
    ensures r == Some(NotAnArray) <==> !data.Arr?
  {
    if !data.Arr? then Some(NotAnArray) else FirstBadItem(data.items, 0)
  }

  /** Decimal digits of `n`, for the item index in messages. */
  function NatToString(n: nat): (r: string)
    ensures |r| >= 1
    decreases n
  {
    var digit := ["0", "1", "2", "3", "4", "5", "6", "7", "8", "9"][n % 10];
    if n < 10 then digit else NatToString(n / 10) + digit
  }

  function Quote(s: string): string {
    "'" + s + "'"
  }

  /** The opening of a message about the item at index `k`. */
  function ItemPrefix(k: nat): string {
    "On instance[" + NatToString(k) + "]: "
  }

  /** What a message says about an item's problem. */
  function ProblemText(p: ItemProblem): string {
    match p
    case NotAnObject => "item is not of type 'object'"
    case MissingProperty(name) => Quote(name) + " is a required property"
    case NotAString(name) => "property " + Quote(name) + " is not of type 'string'"
    case NotInEnum(value) => Quote(value) + " is not one of ['positive', 'neutral', 'negative']"
  }

  /** The human-readable text of a violation, in the wording of jsonschema's messages. */
  function Message(v: Violation): (m: string)
    ensures |m| > 0
  {
    match v
    case NotAnArray => "instance is not of type 'array'"
    case AtItem(k, p) => ItemPrefix(k) + ProblemText(p)
  }

  /** `validate_json(data)`: `(True, None)` exactly when the schema accepts `data`. */
  function ValidateJson(data: Json): (r: (bool, Option<string>))
    ensures r.0 <==> Conforms(data)
    ensures r.0 ==> r.1 == None
    ensures !r.0 ==> r.1.Some? && |r.1.value| > 0
  {
    match Check(data)
    case None => (true, None)
    case Some(v) => (false, Some(Message(v)))
  }

  /** A message about an item opens with the item's index. */
  lemma MessageNamesItem(k: nat, p: ItemProblem)
    ensures |ItemPrefix(k)| <= |Message(AtItem(k, p))|
    ensures Message(AtItem(k, p))[..|ItemPrefix(k)|] == "On instance[" + NatToString(k) + "]: "
  {
    var at, tail := ItemPrefix(k), ProblemText(p);
    assert Message(AtItem(k, p)) == at + tail;
    assert (at + tail)[..|at|] == at;
  }

  // ---------------------------------------------------------------------------
  // Properties of the schema
  // ---------------------------------------------------------------------------

  /** Anything but an array is rejected, whatever it holds. */
  lemma NonArrayRejected(data: Json)
    requires !data.Arr?
    ensures ValidateJson(data).0 == false
    ensures Check(data) == Some(NotAnArray)
  {
  }

  /** The empty array passes: the schema sets no `minItems`. */
  lemma EmptyArrayAccepted()
    ensures ValidateJson(Arr([])) == (true, None)
  {
  }

  /**
   * One bad item (not an object, a required key missing, a wrong type, a label
   * outside the enum) rejects the whole array, and the report names the first
   * such item.
   */
  lemma {:induction false} BadItemRejectsArray(items: seq<Json>, k: nat)
    requires k < |items| && !ValidItem(items[k])
    ensures ValidateJson(Arr(items)).0 == false
    ensures Check(Arr(items)).Some? && Check(Arr(items)).value.AtItem?
    ensures Check(Arr(items)).value.index <= k
  {
  }

  /** Labels are matched exactly: capitalised or foreign words are not in the enum. */
  lemma LabelMatchIsExact()
    ensures !IsLabel("Positive") && !IsLabel("bullish") && !IsLabel(" neutral")
    ensures IsLabel("positive") && IsLabel("neutral") && IsLabel("negative")
  {
  }

  /** Keys other than "paragraph" and "label" do not matter: no `additionalProperties`. */
  lemma ExtraKeysAccepted(fields: map<string, Json>, key: string, value: Json)
    requires ValidItem(Obj(fields))
    requires key != "paragraph" && key != "label"
    ensures ValidItem(Obj(fields[key := value]))
  {
  }

  /** Any string is a paragraph, the empty one included. */
  lemma EmptyParagraphAccepted(tag: string)
    requires IsLabel(tag)
    ensures ValidItem(Obj(map["paragraph" := Str(""), "label" := Str(tag)]))
  {
  }

  /** The "bullish" example: it parses, but its label is reported as outside the enum. */
  lemma BullishLabelRejected()
    ensures Check(Arr([Obj(map["paragraph" := Str("X"), "label" := Str("bullish")])]))
         == Some(AtItem(0, NotInEnum("bullish")))
    ensures ValidateJson(Arr([Obj(map["paragraph" := Str("X"), "label" := Str("bullish")])])).0 == false
  {
    var item := Obj(map["paragraph" := Str("X"), "label" := Str("bullish")]);
    assert !IsLabel("bullish");
    assert ItemProblemOf(item) == Some(NotInEnum("bullish"));
  }
}

=== FILE: wrappers.dfy ===
/** Failure-carrying values used where the Python code returns None or raises. */
module Wrappers {

  datatype Option<+T> = None | Some(value: T)

  datatype Result<+T, +E> = Success(value: T) | Failure(error: E)
}
